=== FILE: README.md ===
# sa-rbac-validator in Dafny

sa-rbac-validator is a Kubernetes validating admission webhook. It stops a
requester from handing a workload a service account that holds more RBAC
permissions than the requester has. For each admission request it does four
things:

- It locates the service-account name in the submitted object.
- It resolves the service account's identity.
- It collects, per namespace and at cluster scope, the policy rules that role
  bindings grant to the service account, expanded into one entry per API group,
  resource, resource name and non-resource URL.
- It denies the request with HTTP 403 and a message that lists the excess rules
  per scope, or allows it with HTTP 200.

This project models that decision as pure functions and proves properties of it.
It models the rule helpers of `util/rules.go`, the subject matcher of
`util/user.go`, and `PraseNotFoundBehavior` and `Validate` of `pkg/validate.go`.
The modules are:

- `Outcomes` (outcomes.dfy): `Option`, `Result` (a Go error return) and `Outcome`.
  An `Outcome` is either a value or a Go runtime panic: an index out of range, or
  a nil dereference.
- `Verbs` (verbs.dfy): `ReduceVerbs` and `MergeRuleVerbs`. Their partners are the
  reference definitions `LastOccurrences` and the filter `Missing`.
- `Rules` (rules.dfy): `ContainsRule`, `AddRule`, `AddRules` and `ExtendRules`
  over `PolicyRule`.
  - Every comparison reads only the first entry of each field. `Absorbs` is when
    a lookup finds a rule. `Trips` is when it panics: a named entry meets an
    unnamed rule for the same resource.
  - `Normal` is the shape `ExtendRules` produces.
  - `Atoms` is the expansion order of its nested loops.
- `Escalation` (escalation.dfy): `IsRuleEscalation`, the atomic candidate entries
  that no base entry `Covers`.
- `Subjects` (subjects.dfy): `SubjectMatches` and `SubjectsMatch`.
- `Webhook` (validate.dfy): the not-found policy parser, role resolution, the
  per-scope binding loop (`ScopeRules`), the namespace loop, the denial message
  and `Validate`. They run over an abstract `Cluster` snapshot that stands for
  the API client, the informer caches and the rule serializer.
- `WebhookFacts` (validate_facts.dfy): what `Validate`'s control flow amounts to.
- `Corrected` (corrected.dfy): the decision the code evidently intends, a
  guarded `ContainsRule`, and the concrete inputs of the findings below.

The model follows the code where the two differ from the intent that the code's
own comment states (pkg/validate.go:51: the requester is extracted "to later
compare it's permissions to the service acount"):

- That comment describes comparing the service account's rules with the
  requester's rules. The code never fills the requester's list. A binding that
  names the requester replaces the service account's collected rules.
- The code only denies when some namespace escalates.

`Webhook.Validate` models this as written. `Corrected.ValidateCorrected` models
that intent. The differences are listed under Findings.

## Model

| member | source | states |
|---|---|---|
| Verbs.ReduceFromMeaning | util/rules.go:157-173 | the loop from any position yields `["*"]` when a wildcard lies ahead, otherwise the verbs kept so far followed by the last occurrence of each remaining verb |
| Verbs.ReduceVerbs | util/rules.go:155-175 | a wildcard reduces the list to `["*"]`; otherwise the result is the reference last-occurrence list, without duplicates or wildcard, with the same verbs as the input |
| Verbs.ReduceVerbsIdempotent | util/rules.go:155-175 | reducing twice equals reducing once |
| Verbs.MissingElements | util/rules.go:137-151 | the reference filter `Missing` holds exactly the verbs of the second list that are not in the first |
| Verbs.AppendMissing | util/rules.go:137-151 | the inner merge loop returns its start followed by exactly the `Missing` verbs in their order in the second list, and keeps the result duplicate-free |
| Verbs.MergeRuleVerbs | util/rules.go:127-152 | a wildcard on either side gives `["*"]`; otherwise the result is the duplicate-free union of both lists, wildcard-free, with the reduced first list as its prefix, followed by the verbs of the reduced second list that the first lacks, in their order |
| Verbs.MergeWithItself | util/rules.go:127-152 | merging a list with itself equals reducing it |
| Verbs.MergeGrants | util/rules.go:127-152 | the merge grants every verb of either list (or holds the wildcard) and holds no verb that neither list has |
| Verbs.MergeAbsorbsRepeat | util/rules.go:127-152 | merging the same second list in again changes nothing |
| Rules.ContainsFrom | util/rules.go:100-123 | from a start index, the loop returns the first entry that absorbs the rule, returns -1 when no entry absorbs or trips, and panics exactly at a first trip |
| Rules.ContainsRule | util/rules.go:99-124 | the first absorbing index with no earlier absorb or trip; -1 iff nothing absorbs or trips; a panic only when a named entry meets an unnamed rule first |
| Rules.FirstHit | util/rules.go:100-123 | when the lookup does not return -1 it stops at the first entry that absorbs or trips: the returned index when it absorbs, a panic when it trips |
| Rules.ContainsRuleDetermined | util/rules.go:100-123 | two lookups whose entries absorb and trip alike, position by position, return the same outcome |
| Rules.AddRule | util/rules.go:83-90 | panics iff the lookup panics; the length is kept iff some entry absorbs the rule, and otherwise the rule is appended; when kept, it merges its verbs into the first absorbing entry, keeps that entry's key and leaves every other entry unchanged |
| Rules.AddRules | util/rules.go:92-97 | existing entries keep their place and key, at most one entry is added per rule, and every new entry has the key of an added rule |
| Rules.AddRuleVerbs | util/rules.go:83-90 | adding an atomic rule keeps every entry's verbs granted, grants the rule's verbs through an absorbing entry, and every verb of the result is an old verb of that entry or a verb of the rule |
| Rules.AddRulesGrants | util/rules.go:92-97 | after adding atomic rules, every old entry still grants its verbs and every added rule is permitted: an entry absorbs it and grants all its verbs or holds the wildcard |
| Rules.AddRulesVerbsFrom | util/rules.go:92-97 | every verb of every entry is an old verb of that entry or a verb of an added rule that the entry absorbs |
| Rules.ExtendRules | util/rules.go:50-81 | the result is normal (atomic entries, none absorbed or tripped by an earlier one), every entry's key comes from the expansion, every expanded atom is permitted by an entry that absorbs it and grants its verbs, and every verb of an entry comes from an atom it absorbs |
| Rules.RuleAtomsVerbs | util/rules.go:53-78 | every entry the nested loops emit carries the rule's own verbs |
| Rules.AtomsAreAtomic | util/rules.go:53-78 | the nested loops only emit entries with one group, resource and at most one name, or with a single URL |
| Rules.AddRulesNormal | util/rules.go:92-97 | adding atomic rules to a normal list keeps it normal |
| Rules.AddRulesAbsorbs | util/rules.go:92-97 | after adding atomic rules, each of them is absorbed by some entry |
| Rules.AddRulesNoPanic | util/rules.go:92-97 | when no entry or added rule trips another added rule, adding never panics |
| Rules.AddRulesRebuilds | util/rules.go:92-97 | re-adding the tail of a normal list to its prefix rebuilds the list |
| Rules.ExtendRulesOfNormal | util/rules.go:50-81 | expanding a normal list returns it unchanged |
| Rules.ExtendRulesIdempotent | util/rules.go:50-81 | expanding an expansion changes nothing |
| Rules.ExtendUnnamedNeverPanics | util/rules.go:50-81 | rules without resource names always expand without a panic |
| Rules.ExtendRulesKeys | util/rules.go:50-81 | whether expansion panics, and the keys it yields, do not depend on verbs |
| Rules.NamedThenUnnamedPanics | util/rules.go:113 | a named rule followed by an unnamed rule for the same resource makes ExtendRules panic |
| Escalation.Matched | util/rules.go:15-41 | the inner loop raises `matched` iff some base entry covers the candidate |
| Escalation.Escalated | util/rules.go:14-47 | an entry is in the result iff it is a candidate that no base entry covers; the result is no longer than the candidates |
| Escalation.IsRuleEscalation | util/rules.go:9-48 | panics iff either expansion panics; otherwise yields exactly the expanded candidates that no expanded base entry covers |
| Escalation.EscalatedAppend | util/rules.go:14-46 | the filter distributes over concatenation of candidate lists |
| Escalation.EmptyBaseEscalatesAll | util/rules.go:9-48 | against an empty base the escalation is the candidate's whole expansion |
| Escalation.NoSelfEscalation | util/rules.go:9-48 | a rule list never escalates against itself |
| Escalation.BaseVerbsIgnored | util/rules.go:9-48 | two bases with equal keys give equal escalations: base verbs are never consulted |
| Escalation.SameKeysNeverEscalate | util/rules.go:9-48 | a candidate with the base's keys is never an escalation, whatever its verbs |
| Escalation.NamedBaseCoversUnnamed | util/rules.go:27-39 | for any group, resource, name and verbs, a named base entry covers an unnamed candidate for the same resource |
| Escalation.UnnamedBaseMissesNamed | util/rules.go:28-36 | for any group, resource, name and verbs, an unnamed base entry does not cover a named candidate, which is escalated |
| Subjects.InGroups | util/user.go:61-67 | the group loop succeeds iff the name is one of the identity's groups |
| Subjects.SubjectMatches | util/user.go:54-69 | a User subject matches on name; a ServiceAccount subject matches on name and the binding's namespace; a Group subject matches on group membership; other kinds never match |
| Subjects.SubjectsMatch | util/user.go:45-52 | true iff some subject of the list matches |
| Subjects.SubjectsMatchOrderFree | util/user.go:45-52 | lists with the same members give the same answer |
| Webhook.ToLower | pkg/validate.go:38 | same length; each character is lower-cased on its own |
| Webhook.PraseNotFoundBehavior | pkg/validate.go:37-46 | Deny iff the lower-cased text is "deny", Allow iff it is "allow"; otherwise -1 with the exact error text, and the error is present iff the result is -1 |
| Webhook.RulesForRoleBinding | util/roleBindings.go:8-15 | kind "Role" reads the role of the binding's namespace and name, any other kind the cluster role of that name; the result is that role's rules, and a panic iff it is missing |
| Webhook.RulesForClusterRoleBinding | util/clusterRoleBinding.go:8-11 | the cluster role of the referenced name, whatever the kind; a panic iff it is missing |
| Webhook.RulesFor | pkg/validate.go:131-200 | the namespace loop resolves with the role-binding lookup (lines 131 and 147), the cluster loop with the cluster-role-binding lookup (lines 184 and 200); a panic iff the role read is missing |
| Webhook.ClusterRoleLookupReadsNameOnly | util/clusterRoleBinding.go:8-11 | a cluster-role lookup depends on the role name only: not on the binding's namespace, and at cluster scope not on the kind |
| Webhook.Grant | pkg/validate.go:130-143 | a missing role panics; the entries added into keep their place and key; the result holds the grant: every expanded entry of the role is absorbed by some entry; a normal list stays normal |
| Webhook.GrantFrom | pkg/validate.go:130-143 | Grant adds nothing but the grant: every entry past those added into has the key of an atom of the binding's role |
| Webhook.HoldsGrantKeys | pkg/validate.go:142-143 | holding a grant survives later additions, which keep every entry's key |
| Webhook.ScopeRules | pkg/validate.go:128-161 | the binding loop keeps the collected rules normal |
| Webhook.ScopeRulesHolds | pkg/validate.go:128-161 | at the end of the loop, the grant of every binding that names the service account or the requester is held unless a later binding names the requester; with no requester binding the incoming entries keep their place and key |
| Webhook.ScopeRulesFrom | pkg/validate.go:128-161 | every collected entry is an incoming one (when no binding names the requester) or has the key of an atom of a binding that names the service account or the requester and is not followed by a binding naming the requester |
| Webhook.ScopeEscalation | pkg/validate.go:162 | with the never-filled requester list as base, the escalation of normal collected rules is those rules |
| Webhook.NamespaceEscalation | pkg/validate.go:115-162 | a listing error stops with a 403 carrying its text; otherwise it crashes iff the binding loop panics, and yields the loop's final rules |
| Webhook.NamespaceLoop | pkg/validate.go:113-167 | a stop is some namespace's own stop; a normal end keeps the earlier records as a prefix |
| Webhook.NamespaceLoopDistinct | pkg/validate.go:165 | records are keyed by namespace name: starting from records with distinct names, the loop never records a namespace twice |
| Webhook.NamespaceLoopSound | pkg/validate.go:162-166 | every added record is a listed namespace with its own non-empty escalation |
| Webhook.NamespaceLoopComplete | pkg/validate.go:113-167 | the loop ends normally iff every namespace does, and then every namespace with a non-empty escalation has a record |
| Webhook.NamespaceLoopStopsAt | pkg/validate.go:113-127 | the loop ends with the response of the first namespace that stops, once every earlier namespace ends normally |
| Webhook.NothingRecordedIff | pkg/validate.go:110-167 | when every namespace ends normally, nothing is recorded iff no namespace escalates |
| Webhook.NamespaceClauses | pkg/validate.go:232-247 | the clauses extend the message; they succeed iff every record serializes; a failure carries some record's error |
| Webhook.NamespaceClausesSingle | pkg/validate.go:233-245 | one record renders as "Request try to grant permissions in Namespace: " + namespace + " that are currently not held by user: " + its rules' text + ".", or fails with their serialization error |
| Webhook.NamespaceClausesAppend | pkg/validate.go:233-246 | rendering distributes over concatenation of the records, so the text is one clause per record in record order, and the first failure ends it |
| Webhook.EscalationMessage | pkg/validate.go:217-247 | the namespace clauses follow "Request try to grant permissions at Cluster-Scope that are currently not held by user: " + the cluster rules' text + "." when the cluster escalation is non-empty, and the empty text otherwise; a cluster serialization error is returned |
| Webhook.Validate | pkg/validate.go:48-267 | an unreadable service-account name gives the exact response the not-found policy selects; every response is allowed iff its code is 200, denials are 403, and an allowed checked request says "Request allowed" |
| WebhookFacts.LookupFailuresDeny | pkg/validate.go:82-181 | a failure to resolve the service account, to list namespaces, to list the role bindings of the first failing namespace (all earlier ones evaluated normally) or to list cluster role bindings denies with that error's text |
| WebhookFacts.MissingRoleCrashes | util/roleBindings.go:9-15 | a binding that names the service account and whose role is missing makes the scope loop panic |
| WebhookFacts.GrantIntoNothing | pkg/validate.go:158-159 | a binding's grants added into the empty requester list are its expanded rules |
| WebhookFacts.RequesterMatchReplaces | pkg/validate.go:145-160 | after a binding that names the requester, the loop continues from that binding's expanded rules alone, whatever was collected before |
| WebhookFacts.RequesterMatchForgets | pkg/validate.go:128-161 | two different service-account histories before a requester-matching binding end the same |
| WebhookFacts.IgnoresServiceAccount | pkg/validate.go:128-161 | when no binding names either service account, they produce the same collected rules |
| WebhookFacts.AllowedIffNothingCollected | pkg/validate.go:110-267 | with every lookup succeeding and no panic, the request is allowed iff every namespace ends with no collected rules; cluster-scope grants play no part |
| WebhookFacts.RecordsOfLoop | pkg/validate.go:113-167 | with every namespace resolving without a panic, the loop records exactly the namespaces with non-empty collected rules, each once and with those rules |
| WebhookFacts.DenialMessage | pkg/validate.go:110-267 | with every lookup succeeding and no panic, the request is allowed with "Request allowed" when no namespace collects rules, and is otherwise denied with EscalationMessage (or its serialization error) of the cluster scope's collected rules and records of exactly the namespaces with non-empty collected rules, one per namespace |
| WebhookFacts.DoubledRecordsRejected | pkg/validate.go:165 | a record list that repeats its records is never the loop's records, so no namespace clause is rendered twice |
| Corrected.EffectiveGrants | pkg/validate.go:128-161 | one identity's grants in a scope stay normal, never shrink, and are the starting list when no binding names the identity |
| Corrected.EffectiveGrantsHold | pkg/validate.go:128-143 | the starting entries keep their place and key, and the result holds the grant of every binding that names the identity |
| Corrected.EffectiveGrantsFrom | pkg/validate.go:128-143 | every entry past the starting ones has the key of an atom of a binding that names the identity |
| Corrected.ScopeRulesWithoutRequester | pkg/validate.go:128-161 | when no binding names the requester, the loop as written equals the intended accumulation of the service account's grants |
| Corrected.CorrectedScope | pkg/validate.go:162 | an entry escalates iff the service account holds it and no grant of the requester covers it |
| Corrected.CorrectedNamespace | pkg/validate.go:115-162 | a listing error stops with a 403; otherwise it crashes iff the scope panics and yields its escalation |
| Corrected.ValidateCorrected | pkg/validate.go:48-267 | the same response shapes as Validate: not-found policy, allowed iff 200, denials 403 |
| Corrected.CorrectedVerdict | pkg/validate.go:215-267 | once the loops end normally, allowed iff neither the namespaces nor the cluster scope escalate |
| Corrected.CorrectedAllowedIffCovered | pkg/validate.go:110-267 | with every lookup succeeding and no panic, allowed iff every namespace scope and the cluster scope have an empty escalation |
| Corrected.CorrectedRecordsOfLoop | pkg/validate.go:113-167 | with every namespace resolving without a panic, the corrected loop records exactly the namespaces with a non-empty escalation, each once and with it |
| Corrected.CorrectedDenialMessage | pkg/validate.go:110-267 | with every lookup succeeding and no panic, allowed with "Request allowed" when neither a namespace nor the cluster scope escalates, otherwise denied with EscalationMessage (or its error) of the cluster escalation and records of exactly the escalating namespaces, one per namespace |
| Corrected.CorrectedSelfNeverEscalates | pkg/validate.go:162 | an identity compared with itself escalates nothing |
| Corrected.ContainsGuardedFrom | util/rules.go:100-123 | the guarded loop returns the first absorbing index from the start, or -1 iff none absorbs |
| Corrected.ContainsRuleGuarded | util/rules.go:99-124 | the guarded lookup never panics and returns the first absorbing index, or -1 iff none absorbs |
| Corrected.GuardedSkipsNamedEntry | util/rules.go:112-117 | on the input where ContainsRule panics, the guarded lookup reports no entry |
| Corrected.RequesterGrantDenied | pkg/validate.go:159 | as written, a requester holding pods/get in "ci" with a service account holding nothing is denied |
| Corrected.RequesterGrantAllowedWhenCorrected | pkg/validate.go:159 | corrected, the same request is allowed with "Request allowed" |
| Corrected.ClusterEscalationAllowed | pkg/validate.go:215-216 | as written, a service account whose only grant (secrets/get) comes from a cluster role binding is allowed |
| Corrected.ClusterEscalationDeniedWhenCorrected | pkg/validate.go:215-231 | corrected, the same request is denied with the cluster clause |

## Left out

- main.go is not modelled: the HTTPS server, the AdmissionReview decoding, reading the environment and starting the informers. Inside main.go, the policy parser's failure is fatal, so the configuration holds Deny or Allow.
- ExtractUser and ExtractServiceAccount (util/admissionRequest.go) are replaced by inputs: the requester identity, and either the service-account name or an error text. JSON-pointer evaluation is not modelled.
- GetServiceAccount (util/user.go:15-43) calls the API server for the service account, its token secret and a TokenReview. It is a parameter of the snapshot that returns an identity or an error. Its own panic on a service account without secrets is not modelled.
- GetRolesForUser (util/user.go:71-83) is not called by Validate and is not modelled.
- RulesToString (util/rules.go:177-180) is JSON marshalling. It is a snapshot parameter that returns a text or an error.
- NamespacesToStrings (util/namespace.go) and the zerolog setup are not modelled, and neither is any logging.
- The informer listers are a snapshot: a namespace list, a role-binding list per namespace, a cluster-role-binding list, and role and cluster-role maps. Cache staleness and concurrency are not modelled.
- The rule-resolution error branches in pkg/validate.go (132-141, 147-157, 184-194, 200-210) are not modelled because they are unreachable. The lister returns a nil role together with its error, and reading that role's rules panics first (util/roleBindings.go:11,14 and util/clusterRoleBinding.go:10). The model reports the panic.
- Webhook.EscalationMessage renders the namespace clauses in listing order. The source ranges over a Go map, whose order is unspecified.
- WebhookFacts.DenialMessage and Corrected.CorrectedDenialMessage state the message for records whose content is fixed (one record per escalating namespace, with its rules) but whose order is not, since the source's map order is unspecified.
- Webhook.NamespaceLoop keeps the first record of a namespace listed twice, where the Go map assignment at pkg/validate.go:165 overwrites it. Both hold the same escalation, because the snapshot computes a namespace's escalation from its name alone.
- Escalation.Matched reads the first API group and resource of both rules only after checking that they exist, so it never panics. The source reads them unguarded (util/rules.go:27), which panics on an entry without groups or resources. It is only ever given entries of ExtendRules, which are atomic and carry both.
- Webhook.ToLower lower-cases ASCII letters only. Go's strings.ToLower also maps other Unicode letters.
- Webhook.Validate does not carry the request UID into the response, and a panic carries no message.

## Findings

| source | as written | input that shows it | evidently intended | confidence | as-written member | corrected member |
|---|---|---|---|---|---|---|
| pkg/validate.go:159 | a role binding that names the requester sets the service account's rules to that binding's grants added into the requester list, which is never filled (also at line 212) | namespace "ci" holds one RoleBinding giving User alice the Role "reader" (get pods); alice submits an object using service account build-bot, which no binding names | allowed: the service account gains nothing alice lacks | high; not executed | Corrected.RequesterGrantDenied | Corrected.RequesterGrantAllowedWhenCorrected |
| pkg/validate.go:216 | the response denies only when some namespace escalated; a cluster-scope escalation alone is allowed | build-bot is in group "system:serviceaccounts:ci", which a ClusterRoleBinding gives the ClusterRole "secret-reader" (get secrets); alice holds nothing; namespace "ci" has no bindings | denied with the cluster-scope clause | high; not executed | Corrected.ClusterEscalationAllowed | Corrected.ClusterEscalationDeniedWhenCorrected |
| util/rules.go:113 | the candidate's first resource name is read without checking that it has one | a Role with rules [get pods named "web", list pods]: ExtendRules meets the unnamed entry after the named one and panics | a named entry does not contain an unnamed rule, so the loop moves on | high; not executed | Rules.NamedThenUnnamedPanics | Corrected.ContainsRuleGuarded |

=== FILE: corrected.dfy ===
/** The decision pkg/validate.go evidently intends: in every scope, collect the
    grants of the service account and of the requester separately, and deny when
    the service account holds an atomic grant that no grant of the requester
    covers, at namespace scope or at cluster scope. The rule helpers, the
    subject matcher and the response shapes are those of the model as written. */
module Corrected {
  import opened Outcomes
  import opened Rules
  import opened Escalation
  import opened Subjects
  import opened Webhook
  import opened WebhookFacts

  /** The grants of one identity in one scope: the expanded rules of every
      binding that names it, added up in binding order. */
  function EffectiveGrants(cluster: Cluster, bindings: seq<Binding>, who: Identity, clusterScope: bool,
                           acc: seq<PolicyRule>): (r: Outcome<seq<PolicyRule>>)
    ensures Normal(acc) && r.Ok? ==> Normal(r.value)
    ensures r.Ok? ==> |acc| <= |r.value|
    ensures NoneNames(bindings, who) ==> r == Ok(acc)
    decreases |bindings|
  {
    if bindings == [] then Ok(acc)
    else
      var binding := bindings[0];
      var next :=
        if SubjectsMatch(binding.subjects, who, binding.namespace) then Grant(cluster, binding, clusterScope, acc)
        else Ok(acc);
      match next
      case Panic => Panic
      case Ok(acc1) =>
        assert forall i :: 1 <= i < |bindings| ==> bindings[i] == bindings[1..][i - 1];
        EffectiveGrants(cluster, bindings[1..], who, clusterScope, acc1)
  }

  /** The accumulation keeps the entries of `acc` in place with their keys, and
      the result holds the grant of every binding that names the identity. */
  lemma {:induction false} EffectiveGrantsHold(cluster: Cluster, bindings: seq<Binding>, who: Identity, clusterScope: bool,
                                               acc: seq<PolicyRule>)
    ensures var r := EffectiveGrants(cluster, bindings, who, clusterScope, acc);
            r.Ok? ==> KeepsKeys(acc, r.value)
    ensures var r := EffectiveGrants(cluster, bindings, who, clusterScope, acc);
            r.Ok? ==> forall i :: 0 <= i < |bindings| && SubjectsMatch(bindings[i].subjects, who, bindings[i].namespace)
                        ==> HoldsGrantOf(cluster, bindings[i], clusterScope, r.value)
    decreases |bindings|
  {
    var r := EffectiveGrants(cluster, bindings, who, clusterScope, acc);
    if bindings != [] && r.Ok? {
      var binding := bindings[0];
      var rest := bindings[1..];
      var acc1 := if SubjectsMatch(binding.subjects, who, binding.namespace)
                  then Grant(cluster, binding, clusterScope, acc).value else acc;
      assert r == EffectiveGrants(cluster, rest, who, clusterScope, acc1);
      EffectiveGrantsHold(cluster, rest, who, clusterScope, acc1);
      forall i | 0 <= i < |bindings| && SubjectsMatch(bindings[i].subjects, who, bindings[i].namespace)
        ensures HoldsGrantOf(cluster, bindings[i], clusterScope, r.value)
      {
        if i == 0 {
          HoldsGrantKeys(cluster, binding, clusterScope, acc1, r.value);
        } else {
          assert bindings[i] == rest[i - 1];
        }
      }
    }
  }

  /** Every entry of `out` past those of `acc` has the key of an atom of a
      binding that names `who`. */
  predicate GrantedFrom(cluster: Cluster, bindings: seq<Binding>, who: Identity, clusterScope: bool,
                        acc: seq<PolicyRule>, out: seq<PolicyRule>) {
    forall i :: |acc| <= i < |out| ==> NamedGrantOf(cluster, bindings, who, clusterScope, out[i])
  }

  /** `rule` has the key of an atom of some binding that names `who`. */
  predicate NamedGrantOf(cluster: Cluster, bindings: seq<Binding>, who: Identity, clusterScope: bool, rule: PolicyRule) {
    exists j :: 0 <= j < |bindings| && SubjectsMatch(bindings[j].subjects, who, bindings[j].namespace)
                && FromGrantOf(cluster, bindings[j], clusterScope, rule)
  }

  /** The accumulation adds nothing but grants of the identity: beyond the
      entries of `acc`, every entry comes from a binding that names it. */
  lemma {:induction false} EffectiveGrantsFrom(cluster: Cluster, bindings: seq<Binding>, who: Identity, clusterScope: bool,
                                               acc: seq<PolicyRule>)
    ensures var r := EffectiveGrants(cluster, bindings, who, clusterScope, acc);
            r.Ok? ==> GrantedFrom(cluster, bindings, who, clusterScope, acc, r.value)
    decreases |bindings|
  {
    var r := EffectiveGrants(cluster, bindings, who, clusterScope, acc);
    if bindings != [] && r.Ok? {
      var binding := bindings[0];
      var rest := bindings[1..];
      var names := SubjectsMatch(binding.subjects, who, binding.namespace);
      var acc1 := if names then Grant(cluster, binding, clusterScope, acc).value else acc;
      assert r == EffectiveGrants(cluster, rest, who, clusterScope, acc1);
      if names { GrantFrom(cluster, binding, clusterScope, acc); }
      EffectiveGrantsFrom(cluster, rest, who, clusterScope, acc1);
      EffectiveGrantsHold(cluster, rest, who, clusterScope, acc1);
      EffectiveGrantsFromStep(cluster, bindings, who, clusterScope, acc, acc1, r.value);
    }
  }

  /** One turn of the accumulation for EffectiveGrantsFrom. */
  lemma EffectiveGrantsFromStep(cluster: Cluster, bindings: seq<Binding>, who: Identity, clusterScope: bool,
                                acc: seq<PolicyRule>, acc1: seq<PolicyRule>, out: seq<PolicyRule>)
    requires bindings != [] && |acc| <= |acc1|
    requires var b := bindings[0];
             forall i :: |acc| <= i < |acc1| ==>
               SubjectsMatch(b.subjects, who, b.namespace) && FromGrantOf(cluster, b, clusterScope, acc1[i])
    requires KeepsKeys(acc1, out)
    requires GrantedFrom(cluster, bindings[1..], who, clusterScope, acc1, out)
    ensures GrantedFrom(cluster, bindings, who, clusterScope, acc, out)
  {
    var rest := bindings[1..];
    forall i | |acc| <= i < |out|
      ensures NamedGrantOf(cluster, bindings, who, clusterScope, out[i])
    {
      if i < |acc1| {
        assert Key(out[i]) == Key(acc1[i]);
        assert FromGrantOf(cluster, bindings[0], clusterScope, out[i]);
      } else {
        assert NamedGrantOf(cluster, rest, who, clusterScope, out[i]);
        var j :| 0 <= j < |rest| && SubjectsMatch(rest[j].subjects, who, rest[j].namespace)
                 && FromGrantOf(cluster, rest[j], clusterScope, out[i]);
        assert bindings[j + 1] == rest[j];
      }
    }
  }

  /** When no binding names the requester, the loop as written is the intended
      accumulation of the service account's grants. */
  lemma {:induction false} ScopeRulesWithoutRequester(cluster: Cluster, bindings: seq<Binding>, sa: Identity,
                                                      user: Identity, clusterScope: bool, acc: seq<PolicyRule>)
    requires NoneNames(bindings, user)
    ensures ScopeRules(cluster, bindings, sa, user, clusterScope, acc) == EffectiveGrants(cluster, bindings, sa, clusterScope, acc)
    decreases |bindings|
  {
    if bindings != [] {
      var binding := bindings[0];
      assert !SubjectsMatch(binding.subjects, user, binding.namespace);
      assert NoneNames(bindings[1..], user) by {
        forall j | 0 <= j < |bindings[1..]|
          ensures !SubjectsMatch(bindings[1..][j].subjects, user, bindings[1..][j].namespace)
        {
          assert bindings[1..][j] == bindings[j + 1];
        }
      }
      var next := if SubjectsMatch(binding.subjects, sa, binding.namespace) then Grant(cluster, binding, clusterScope, acc)
                  else Ok(acc);
      if next.Ok? {
        ScopeRulesWithoutRequester(cluster, bindings[1..], sa, user, clusterScope, next.value);
      }
    }
  }

  /** The grants of the service account that the requester's grants do not cover. */
  function CorrectedScope(cluster: Cluster, bindings: seq<Binding>, sa: Identity, user: Identity,
                          clusterScope: bool): (r: Outcome<seq<PolicyRule>>)
    ensures var saGrants := EffectiveGrants(cluster, bindings, sa, clusterScope, []);
            var userGrants := EffectiveGrants(cluster, bindings, user, clusterScope, []);
            && (r.Ok? <==> saGrants.Ok? && userGrants.Ok?)
            && (r.Ok? ==> forall e :: e in r.value <==> e in saGrants.value && !CoveredBy(userGrants.value, e))
  {
    assert Normal([]);
    match EffectiveGrants(cluster, bindings, sa, clusterScope, [])
    case Panic => Panic
    case Ok(saGrants) =>
      match EffectiveGrants(cluster, bindings, user, clusterScope, [])
      case Panic => Panic
      case Ok(userGrants) =>
        ExtendRulesOfNormal(saGrants);
        ExtendRulesOfNormal(userGrants);
        IsRuleEscalation(userGrants, saGrants)
  }

  /** The escalation of one namespace, or the response that ends the request. */
  function CorrectedNamespace(cluster: Cluster, namespace: string, sa: Identity, user: Identity): (r: Flow<seq<PolicyRule>>)
    ensures cluster.roleBindings(namespace).Failure? ==> r == Stop(Denied(cluster.roleBindings(namespace).error))
    ensures cluster.roleBindings(namespace).Success? ==>
              var scope := CorrectedScope(cluster, cluster.roleBindings(namespace).value, sa, user, false);
              (r.Crash? <==> scope.Panic?) && (scope.Ok? ==> r == Next(scope.value))
  {
    match cluster.roleBindings(namespace)
    case Failure(e) => Stop(Denied(e))
    case Success(bindings) =>
      match CorrectedScope(cluster, bindings, sa, user, false)
      case Panic => Crash
      case Ok(escalated) => Next(escalated)
  }

  /** Validate with the evident intent: the requester's grants are the base of
      the comparison, and an escalation at either scope denies. */
  function ValidateCorrected(request: Request, config: Config, cluster: Cluster): (r: Outcome<Response>)
    ensures request.serviceAccount.Failure? ==>
              r == Ok(Response(config.saNotFoundBehavior != Deny, request.serviceAccount.error,
                               if config.saNotFoundBehavior == Deny then StatusForbidden else StatusOK))
    ensures r.Ok? ==> (r.value.allowed <==> r.value.code == StatusOK)
    ensures r.Ok? && !r.value.allowed ==> r.value.code == StatusForbidden
    ensures r.Ok? && r.value.allowed && request.serviceAccount.Success? ==> r.value.message == "Request allowed"
  {
    match request.serviceAccount
    case Failure(e) =>
      if config.saNotFoundBehavior == Deny then Ok(Response(false, e, StatusForbidden))
      else Ok(Response(true, e, StatusOK))
    case Success(serviceAccount) =>
      match cluster.getServiceAccount(serviceAccount, request.namespace)
      case Failure(e) => Ok(Denied(e))
      case Success(serviceAccountUser) =>
        match cluster.namespaces
        case Failure(e) => Ok(Denied(e))
        case Success(namespaces) =>
          var perNamespace := n => CorrectedNamespace(cluster, n, serviceAccountUser, request.user);
          match NamespaceLoop(perNamespace, namespaces, [])
          case Crash => Panic
          case Stop(response) =>
            assert exists n :: perNamespace(n) == Stop(response);
            Ok(response)
          case Next(namespacedEscalationRules) =>
            match cluster.clusterRoleBindings
            case Failure(e) => Ok(Denied(e))
            case Success(clusterRoleBindings) =>
              match CorrectedScope(cluster, clusterRoleBindings, serviceAccountUser, request.user, true)
              case Panic => Panic
              case Ok(clusterEscalatedRules) =>
                if |namespacedEscalationRules| > 0 || |clusterEscalatedRules| > 0 then
                  match EscalationMessage(cluster, clusterEscalatedRules, namespacedEscalationRules)
                  case Failure(e) => Ok(Denied(e))
                  case Success(errorString) => Ok(Denied(errorString))
                else
                  Ok(Response(true, "Request allowed", StatusOK))
  }

  // ----- Lemmas -----

  /** Once the lookups succeed and the loops end normally, the corrected request
      is allowed exactly when neither the namespace loop nor the cluster scope
      reports an escalation. */
  lemma CorrectedVerdict(request: Request, config: Config, cluster: Cluster)
    requires request.serviceAccount.Success?
    requires cluster.getServiceAccount(request.serviceAccount.value, request.namespace).Success?
    requires cluster.namespaces.Success?
    requires cluster.clusterRoleBindings.Success?
    requires var sa := cluster.getServiceAccount(request.serviceAccount.value, request.namespace).value;
             NamespaceLoop(n => CorrectedNamespace(cluster, n, sa, request.user), cluster.namespaces.value, []).Next?
    requires var sa := cluster.getServiceAccount(request.serviceAccount.value, request.namespace).value;
             CorrectedScope(cluster, cluster.clusterRoleBindings.value, sa, request.user, true).Ok?
    ensures ValidateCorrected(request, config, cluster).Ok?
    ensures var sa := cluster.getServiceAccount(request.serviceAccount.value, request.namespace).value;
            ValidateCorrected(request, config, cluster).value.allowed <==>
              && NamespaceLoop(n => CorrectedNamespace(cluster, n, sa, request.user), cluster.namespaces.value, []).value == []
              && CorrectedScope(cluster, cluster.clusterRoleBindings.value, sa, request.user, true).value == []
  {
  }

  /** The intended verdict: once every lookup succeeds and nothing panics, the
      request is allowed exactly when no scope, namespaced or cluster-wide, gives
      the service account a grant the requester's grants do not cover. */
  lemma CorrectedAllowedIffCovered(request: Request, config: Config, cluster: Cluster)
    requires request.serviceAccount.Success?
    requires cluster.getServiceAccount(request.serviceAccount.value, request.namespace).Success?
    requires cluster.namespaces.Success?
    requires cluster.clusterRoleBindings.Success?
    requires var sa := cluster.getServiceAccount(request.serviceAccount.value, request.namespace).value;
             forall n :: n in cluster.namespaces.value ==>
               && cluster.roleBindings(n).Success?
               && CorrectedScope(cluster, cluster.roleBindings(n).value, sa, request.user, false).Ok?
    requires var sa := cluster.getServiceAccount(request.serviceAccount.value, request.namespace).value;
             CorrectedScope(cluster, cluster.clusterRoleBindings.value, sa, request.user, true).Ok?
    ensures ValidateCorrected(request, config, cluster).Ok?
    ensures var sa := cluster.getServiceAccount(request.serviceAccount.value, request.namespace).value;
            ValidateCorrected(request, config, cluster).value.allowed <==>
              && (forall n :: n in cluster.namespaces.value ==>
                    CorrectedScope(cluster, cluster.roleBindings(n).value, sa, request.user, false) == Ok([]))
              && CorrectedScope(cluster, cluster.clusterRoleBindings.value, sa, request.user, true) == Ok([])
  {
    var sa := cluster.getServiceAccount(request.serviceAccount.value, request.namespace).value;
    var namespaces := cluster.namespaces.value;
    var perNamespace := n => CorrectedNamespace(cluster, n, sa, request.user);
    forall n | n in namespaces
      ensures perNamespace(n) == Next(CorrectedScope(cluster, cluster.roleBindings(n).value, sa, request.user, false).value)
    {
    }
    NothingRecordedIff(perNamespace, namespaces);
    CorrectedVerdict(request, config, cluster);
  }

  /** `recorded` holds exactly the listed namespaces with a non-empty corrected
      escalation, each once and with that escalation. */
  predicate CorrectedRecords(cluster: Cluster, sa: Identity, user: Identity, namespaces: seq<string>,
                             recorded: seq<Recorded>) {
    && (forall k :: 0 <= k < |recorded| ==>
          && recorded[k].namespace in namespaces
          && recorded[k].rules != []
          && cluster.roleBindings(recorded[k].namespace).Success?
          && CorrectedScope(cluster, cluster.roleBindings(recorded[k].namespace).value, sa, user, false)
             == Ok(recorded[k].rules))
    && (forall n :: n in namespaces && cluster.roleBindings(n).Success? ==>
          var scope := CorrectedScope(cluster, cluster.roleBindings(n).value, sa, user, false);
          scope.Ok? && scope.value != [] ==>
            HasRecord(recorded, n))
    && DistinctNames(recorded)
  }

  /** When every namespace's bindings resolve and nothing panics, the corrected
      namespace loop records exactly the namespaces with a non-empty escalation. */
  lemma CorrectedRecordsOfLoop(cluster: Cluster, sa: Identity, user: Identity, namespaces: seq<string>)
    requires forall n :: n in namespaces ==>
               && cluster.roleBindings(n).Success?
               && CorrectedScope(cluster, cluster.roleBindings(n).value, sa, user, false).Ok?
    ensures NamespaceLoop(n => CorrectedNamespace(cluster, n, sa, user), namespaces, []).Next?
    ensures CorrectedRecords(cluster, sa, user, namespaces,
                             NamespaceLoop(n => CorrectedNamespace(cluster, n, sa, user), namespaces, []).value)
  {
    var perNamespace := n => CorrectedNamespace(cluster, n, sa, user);
    NamespaceLoopComplete(perNamespace, namespaces, []);
    NamespaceLoopSound(perNamespace, namespaces, []);
    NamespaceLoopDistinct(perNamespace, namespaces, []);
    var recorded := NamespaceLoop(perNamespace, namespaces, []).value;
    CorrectedRecordsOfEscalations(cluster, sa, user, namespaces, recorded);
  }

  /** The records of the corrected namespace escalations, read as the corrected
      scopes of the namespaces' bindings. */
  lemma CorrectedRecordsOfEscalations(cluster: Cluster, sa: Identity, user: Identity, namespaces: seq<string>,
                                      recorded: seq<Recorded>)
    requires forall n :: n in namespaces ==>
               && cluster.roleBindings(n).Success?
               && CorrectedScope(cluster, cluster.roleBindings(n).value, sa, user, false).Ok?
    requires forall k :: 0 <= k < |recorded| ==>
               && recorded[k].namespace in namespaces
               && |recorded[k].rules| > 0
               && CorrectedNamespace(cluster, recorded[k].namespace, sa, user) == Next(recorded[k].rules)
    requires forall n :: n in namespaces && |CorrectedNamespace(cluster, n, sa, user).value| > 0 ==> HasRecord(recorded, n)
    requires DistinctNames(recorded)
    ensures CorrectedRecords(cluster, sa, user, namespaces, recorded)
  {
  }

  /** The corrected message. Once every lookup succeeds and nothing panics, the
      request is denied exactly when some namespace or the cluster scope has an
      escalation, and the denial carries EscalationMessage (or its serialization
      error) for the cluster scope's escalation and the records of exactly the
      escalating namespaces. */
  lemma CorrectedDenialMessage(request: Request, config: Config, cluster: Cluster)
    requires request.serviceAccount.Success?
    requires cluster.getServiceAccount(request.serviceAccount.value, request.namespace).Success?
    requires cluster.namespaces.Success?
    requires cluster.clusterRoleBindings.Success?
    requires var sa := cluster.getServiceAccount(request.serviceAccount.value, request.namespace).value;
             forall n :: n in cluster.namespaces.value ==>
               && cluster.roleBindings(n).Success?
               && CorrectedScope(cluster, cluster.roleBindings(n).value, sa, request.user, false).Ok?
    requires var sa := cluster.getServiceAccount(request.serviceAccount.value, request.namespace).value;
             CorrectedScope(cluster, cluster.clusterRoleBindings.value, sa, request.user, true).Ok?
    ensures ValidateCorrected(request, config, cluster).Ok?
    ensures var sa := cluster.getServiceAccount(request.serviceAccount.value, request.namespace).value;
            var clusterRules := CorrectedScope(cluster, cluster.clusterRoleBindings.value, sa, request.user, true).value;
            exists recorded ::
              && CorrectedRecords(cluster, sa, request.user, cluster.namespaces.value, recorded)
              && (recorded == [] && clusterRules == [] ==>
                    ValidateCorrected(request, config, cluster).value == Response(true, "Request allowed", StatusOK))
              && (recorded != [] || clusterRules != [] ==>
                    var message := EscalationMessage(cluster, clusterRules, recorded);
                    ValidateCorrected(request, config, cluster).value
                    == Denied(if message.Success? then message.value else message.error))
  {
    var sa := cluster.getServiceAccount(request.serviceAccount.value, request.namespace).value;
    CorrectedRecordsOfLoop(cluster, sa, request.user, cluster.namespaces.value);
    CorrectedVerdict(request, config, cluster);
  }

  /** An identity never escalates over itself. */
  lemma CorrectedSelfNeverEscalates(cluster: Cluster, bindings: seq<Binding>, who: Identity, clusterScope: bool)
    requires CorrectedScope(cluster, bindings, who, who, clusterScope).Ok?
    ensures CorrectedScope(cluster, bindings, who, who, clusterScope) == Ok([])
  {
    assert Normal([]);
    var grants := EffectiveGrants(cluster, bindings, who, clusterScope, []).value;
    ExtendRulesOfNormal(grants);
    NoSelfEscalation(grants);
  }

  /** A service account that no binding of the scope names has nothing to escalate. */
  lemma CorrectedNoGrantsNoEscalation(cluster: Cluster, bindings: seq<Binding>, sa: Identity, user: Identity,
                                      clusterScope: bool)
    requires forall i :: 0 <= i < |bindings| ==> !SubjectsMatch(bindings[i].subjects, sa, bindings[i].namespace)
    requires EffectiveGrants(cluster, bindings, user, clusterScope, []).Ok?
    ensures CorrectedScope(cluster, bindings, sa, user, clusterScope) == Ok([])
  {
  }

  // ----- ContainsRule with the resource-name guard -----

  /** The loop of ContainsRule with the length check the other fields get also on
      the candidate's resource name: a named entry does not contain an unnamed
      rule, and the loop moves on instead of reading a missing name. */
  function ContainsGuardedFrom(rules: seq<PolicyRule>, rule: PolicyRule, index: nat): (r: int)
    requires index <= |rules|
    ensures r == -1 || index <= r < |rules|
    ensures r >= 0 ==> Absorbs(rules[r], rule) && forall j :: index <= j < r ==> !Absorbs(rules[j], rule)
    ensures r == -1 <==> forall j :: index <= j < |rules| ==> !Absorbs(rules[j], rule)
    decreases |rules| - index
  {
    if index == |rules| then -1
    else
      var loopRule := rules[index];
      if |loopRule.nonResourceURLs| > 0 then
        if |rule.nonResourceURLs| > 0 && loopRule.nonResourceURLs[0] == rule.nonResourceURLs[0] then index
        else ContainsGuardedFrom(rules, rule, index + 1)
      else if && |loopRule.apiGroups| > 0 && |loopRule.resources| > 0
              && |rule.apiGroups| > 0 && |rule.resources| > 0
              && loopRule.apiGroups[0] == rule.apiGroups[0] && loopRule.resources[0] == rule.resources[0]
      then
        if |loopRule.resourceNames| > 0 then
          if |rule.resourceNames| > 0 && loopRule.resourceNames[0] == rule.resourceNames[0] then index
          else ContainsGuardedFrom(rules, rule, index + 1)
        else index
      else ContainsGuardedFrom(rules, rule, index + 1)
  }

  /** ContainsRule without the panic: the index of the first entry that absorbs
      `rule`, or -1. */
  function ContainsRuleGuarded(rules: seq<PolicyRule>, rule: PolicyRule): (r: int)
    ensures -1 <= r < |rules|
    ensures r >= 0 ==> Absorbs(rules[r], rule) && forall j :: 0 <= j < r ==> !Absorbs(rules[j], rule)
    ensures r == -1 <==> forall j :: 0 <= j < |rules| ==> !Absorbs(rules[j], rule)
  {
    ContainsGuardedFrom(rules, rule, 0)
  }

  /** Wherever ContainsRule as written does not panic, the guarded lookup gives
      the same index. */
  lemma ContainsRuleGuardedAgrees(rules: seq<PolicyRule>, rule: PolicyRule)
    requires ContainsRule(rules, rule).Ok?
    ensures ContainsRule(rules, rule) == Ok(ContainsRuleGuarded(rules, rule))
  {
  }

  /** On the rules that make ExtendRules panic, the guarded lookup finds no entry
      for the unnamed rule, so it would be appended as an entry of its own. */
  lemma GuardedSkipsNamedEntry()
    ensures ContainsRule([PolicyRule(["get"], [""], ["pods"], ["web"], [])], PolicyRule(["list"], [""], ["pods"], [], [])).Panic?
    ensures ContainsRuleGuarded([PolicyRule(["get"], [""], ["pods"], ["web"], [])], PolicyRule(["list"], [""], ["pods"], [], [])) == -1
  {
    var named := PolicyRule(["get"], [""], ["pods"], ["web"], []);
    var unnamed := PolicyRule(["list"], [""], ["pods"], [], []);
    assert Trips(named, unnamed);
    assert !Absorbs(named, unnamed);
  }

  // ----- The two findings, on concrete snapshots -----

  const PodsGet: PolicyRule := PolicyRule(["get"], [""], ["pods"], [], [])
  const SecretsGet: PolicyRule := PolicyRule(["get"], [""], ["secrets"], [], [])
  const Alice: Identity := Identity("alice", "", [])
  const BuildBot: Identity := Identity("build-bot", "", [])
  const AliceRequest: Request := Request("ci", Alice, Success("build-bot"))

  /** The binding of the first finding: User alice gets the Role "reader" of "ci". */
  const ReadPods: Binding := Binding("read-pods", "ci", [Subject("User", "alice", "")], RoleRef("Role", "reader"))

  /** Namespace "ci" holds one binding that gives the requester alice the Role
      "reader" (pods get); the service account build-bot holds nothing. */
  function RequesterOnlyCluster(): Cluster {
    Cluster(
      (name, namespace) => Success(BuildBot),
      Success(["ci"]),
      namespace => Success([ReadPods]),
      Success([]),
      map[("ci", "reader") := [PodsGet]],
      map[],
      rules => Success("rules"))
  }

  /** ReadPods names alice and not build-bot, and resolves to pods get. */
  lemma ReadPodsResolves()
    ensures SubjectsMatch(ReadPods.subjects, Alice, ReadPods.namespace)
    ensures !SubjectsMatch(ReadPods.subjects, BuildBot, ReadPods.namespace)
    ensures RulesFor(RequesterOnlyCluster(), ReadPods, false) == Ok([PodsGet])
    ensures Grant(RequesterOnlyCluster(), ReadPods, false, []) == Ok([PodsGet])
  {
    assert !SubjectMatches(ReadPods.subjects[0], BuildBot, "ci");
    assert RulesFor(RequesterOnlyCluster(), ReadPods, false) == Ok([PodsGet]);
    ExtendSingleAtomic(PodsGet);
    GrantIntoNothing(RequesterOnlyCluster(), ReadPods, false);
  }

  /** As written, "ci" ends with alice's grant collected as the service account's. */
  lemma RequesterOnlyCollected()
    ensures ScopeRules(RequesterOnlyCluster(), [ReadPods], BuildBot, Alice, false, []) == Ok([PodsGet])
  {
    ReadPodsResolves();
    assert [ReadPods][1..] == [];
  }

  /** Corrected, alice's grants in "ci" resolve without a panic. */
  lemma RequesterOnlyGrants()
    ensures EffectiveGrants(RequesterOnlyCluster(), [ReadPods], Alice, false, []).Ok?
  {
    ReadPodsResolves();
    assert [ReadPods][1..] == [];
  }

  /** Corrected, neither scope of the requester-only snapshot escalates. */
  lemma RequesterOnlyScopes()
    ensures CorrectedScope(RequesterOnlyCluster(), [ReadPods], BuildBot, Alice, false) == Ok([])
    ensures CorrectedScope(RequesterOnlyCluster(), [], BuildBot, Alice, true) == Ok([])
  {
    var cluster := RequesterOnlyCluster();
    ReadPodsResolves();
    RequesterOnlyGrants();
    CorrectedNoGrantsNoEscalation(cluster, [ReadPods], BuildBot, Alice, false);
    CorrectedNoGrantsNoEscalation(cluster, [], BuildBot, Alice, true);
  }

  /** As written, the requester's own grant is charged to the service account:
      the request is denied. */
  lemma RequesterGrantDenied()
    ensures Validate(AliceRequest, Config(Deny), RequesterOnlyCluster()).Ok?
    ensures !Validate(AliceRequest, Config(Deny), RequesterOnlyCluster()).value.allowed
  {
    var cluster := RequesterOnlyCluster();
    assert cluster.getServiceAccount("build-bot", "ci") == Success(BuildBot);
    assert cluster.roleBindings("ci") == Success([ReadPods]);
    RequesterOnlyCollected();
    AllowedIffNothingCollected(AliceRequest, Config(Deny), cluster);
  }

  /** Intended, the service account asks for nothing the requester lacks and the
      request is allowed. */
  lemma RequesterGrantAllowedWhenCorrected()
    ensures ValidateCorrected(AliceRequest, Config(Deny), RequesterOnlyCluster())
            == Ok(Response(true, "Request allowed", StatusOK))
  {
    var cluster := RequesterOnlyCluster();
    assert cluster.getServiceAccount("build-bot", "ci") == Success(BuildBot);
    assert cluster.roleBindings("ci") == Success([ReadPods]);
    RequesterOnlyScopes();
    CorrectedAllowedIffCovered(AliceRequest, Config(Deny), cluster);
  }

  /** The group the token review reports for the service accounts of "ci". */
  const CiServiceAccounts: string := "system:serviceaccounts:ci"
  const GroupedBuildBot: Identity := Identity("build-bot", "", [CiServiceAccounts])

  /** The binding of the second finding: the group of build-bot gets the
      ClusterRole "secret-reader". */
  const ReadSecrets: Binding :=
    Binding("read-secrets", "", [Subject("Group", CiServiceAccounts, "")], RoleRef("ClusterRole", "secret-reader"))

  /** The service account build-bot is in the group "system:serviceaccounts:ci",
      which a ClusterRoleBinding gives the ClusterRole "secret-reader" (secrets
      get); the requester alice holds nothing; namespace "ci" has no bindings. */
  function ClusterOnlyCluster(): Cluster {
    Cluster(
      (name, namespace) => Success(GroupedBuildBot),
      Success(["ci"]),
      namespace => Success([]),
      Success([ReadSecrets]),
      map[],
      map["secret-reader" := [SecretsGet]],
      rules => Success("rules"))
  }

  /** The collected rules of both scopes in the cluster-only snapshot, as written
      and corrected. */
  lemma ClusterOnlyScopes()
    ensures ScopeRules(ClusterOnlyCluster(), [], GroupedBuildBot, Alice, false, []) == Ok([])
    ensures ScopeRules(ClusterOnlyCluster(), [ReadSecrets], GroupedBuildBot, Alice, true, []) == Ok([SecretsGet])
    ensures CorrectedScope(ClusterOnlyCluster(), [], GroupedBuildBot, Alice, false) == Ok([])
    ensures CorrectedScope(ClusterOnlyCluster(), [ReadSecrets], GroupedBuildBot, Alice, true) == Ok([SecretsGet])
  {
    var cluster := ClusterOnlyCluster();
    assert SubjectsMatch(ReadSecrets.subjects, GroupedBuildBot, "");
    assert !SubjectsMatch(ReadSecrets.subjects, Alice, "") by {
      assert !SubjectMatches(ReadSecrets.subjects[0], Alice, "");
    }
    assert RulesFor(cluster, ReadSecrets, true) == Ok([SecretsGet]);
    ExtendSingleAtomic(SecretsGet);
    GrantIntoNothing(cluster, ReadSecrets, true);
    assert ScopeRules(cluster, [ReadSecrets], GroupedBuildBot, Alice, true, []) == Ok([SecretsGet]);
    assert EffectiveGrants(cluster, [ReadSecrets], GroupedBuildBot, true, []) == Ok([SecretsGet]);
    assert EffectiveGrants(cluster, [ReadSecrets], Alice, true, []) == Ok([]);
    EmptyBaseEscalatesAll([SecretsGet]);
    CorrectedNoGrantsNoEscalation(cluster, [], GroupedBuildBot, Alice, false);
  }

  /** As written, an escalation found at cluster scope alone never denies. */
  lemma ClusterEscalationAllowed()
    ensures Validate(AliceRequest, Config(Deny), ClusterOnlyCluster())
            == Ok(Response(true, "Request allowed", StatusOK))
  {
    var cluster := ClusterOnlyCluster();
    assert cluster.getServiceAccount("build-bot", "ci") == Success(GroupedBuildBot);
    assert cluster.roleBindings("ci") == Success([]);
    ClusterOnlyScopes();
    AllowedIffNothingCollected(AliceRequest, Config(Deny), cluster);
  }

  /** Intended, the cluster-scope escalation denies with the cluster clause. */
  lemma ClusterEscalationDeniedWhenCorrected()
    ensures ValidateCorrected(AliceRequest, Config(Deny), ClusterOnlyCluster())
            == Ok(Denied(ClusterClause + "rules" + "."))
  {
    var cluster := ClusterOnlyCluster();
    assert cluster.getServiceAccount("build-bot", "ci") == Success(GroupedBuildBot);
    ClusterOnlyScopes();
    var perNamespace := n => CorrectedNamespace(cluster, n, GroupedBuildBot, Alice);
    assert perNamespace("ci") == Next([]);
    assert NamespaceLoop(perNamespace, ["ci"], []) == Next([]);
    assert EscalationMessage(cluster, [SecretsGet], []) == Success(ClusterClause + "rules" + ".");
  }
}

=== FILE: escalation.dfy ===
/** The escalation detector of util/rules.go (IsRuleEscalation): the atomic
    entries of a candidate rule list that no atomic entry of a base list covers.
    Coverage compares keys only; verbs are never consulted. */
module Escalation {
  import opened Outcomes
  import opened Rules

  /** A base entry covers a candidate entry: a URL candidate needs a URL base
      entry with the same first URL; a resource candidate needs a resource base
      entry with the same first group and resource and, when the candidate is
      named, the same first name. An unnamed candidate is covered by a named base
      entry, the opposite of ContainsRule's asymmetry. */
  predicate Covers(base: PolicyRule, cand: PolicyRule) {
    if IsUrl(cand) then
      IsUrl(base) && cand.nonResourceURLs[0] == base.nonResourceURLs[0]
    else
      !IsUrl(base) && SameResource(cand, base)
      && (IsNamed(cand) ==> IsNamed(base) && cand.resourceNames[0] == base.resourceNames[0])
  }

  predicate CoveredBy(bases: seq<PolicyRule>, cand: PolicyRule) {
    exists i :: 0 <= i < |bases| && Covers(bases[i], cand)
  }

  /** The inner loop of IsRuleEscalation: `matched` is raised by every base entry
      that covers the candidate and never lowered. On atomic entries the length
      checks always hold, so the unguarded [0] reads of the source cannot fail. */
  function Matched(bases: seq<PolicyRule>, cand: PolicyRule): (matched: bool)
    ensures matched <==> CoveredBy(bases, cand)
  {
    if bases == [] then false
    else
      var baseRule := bases[0];
      var hit :=
        if |cand.nonResourceURLs| > 0 then
          |baseRule.nonResourceURLs| > 0 && cand.nonResourceURLs[0] == baseRule.nonResourceURLs[0]
        else if |baseRule.nonResourceURLs| == 0 && SameResource(cand, baseRule) then
          if |cand.resourceNames| > 0 then
            |baseRule.resourceNames| > 0 && cand.resourceNames[0] == baseRule.resourceNames[0]
          else true
        else false;
      var rest := Matched(bases[1..], cand);
      assert CoveredBy(bases, cand) <==> hit || CoveredBy(bases[1..], cand) by {
        if CoveredBy(bases, cand) && !hit {
          var i :| 0 <= i < |bases| && Covers(bases[i], cand);
          assert i > 0 && bases[1..][i - 1] == bases[i];
        }
        if CoveredBy(bases[1..], cand) {
          var i :| 0 <= i < |bases[1..]| && Covers(bases[1..][i], cand);
          assert bases[i + 1] == bases[1..][i];
        }
      }
      hit || rest
  }

  /** The outer loop of IsRuleEscalation: the candidates without a covering base
      entry, in candidate order. */
  function Escalated(bases: seq<PolicyRule>, cands: seq<PolicyRule>): (r: seq<PolicyRule>)
    ensures |r| <= |cands|
    ensures forall e :: e in r <==> e in cands && !CoveredBy(bases, e)
  {
    if cands == [] then []
    else
      var head := if Matched(bases, cands[0]) then [] else [cands[0]];

      assert cands == [cands[0]] + cands[1..];
      head + Escalated(bases, cands[1..])
  }

  /** IsRuleEscalation: expands both lists with ExtendRules and returns the
      expanded candidate entries that no expanded base entry covers. */
  function IsRuleEscalation(baseRules: seq<PolicyRule>, escalationRules: seq<PolicyRule>): (r: Outcome<seq<PolicyRule>>)
    ensures r.Ok? <==> ExtendRules(baseRules).Ok? && ExtendRules(escalationRules).Ok?
    ensures r.Ok? ==> |r.value| <= |ExtendRules(escalationRules).value|
    ensures r.Ok? ==> forall e :: e in r.value <==>
              e in ExtendRules(escalationRules).value && !CoveredBy(ExtendRules(baseRules).value, e)
  {
    match ExtendRules(baseRules)
    case Panic => Panic
    case Ok(bases) =>
      match ExtendRules(escalationRules)
      case Panic => Panic
      case Ok(cands) => Ok(Escalated(bases, cands))
  }

  // ----- Lemmas -----

  /** The filter distributes over concatenation, so together with its action on a
      single entry it is fixed: each candidate is kept or dropped on its own, in order. */
  lemma {:induction false} EscalatedAppend(bases: seq<PolicyRule>, c1: seq<PolicyRule>, c2: seq<PolicyRule>)
    ensures Escalated(bases, c1 + c2) == Escalated(bases, c1) + Escalated(bases, c2)
  {
    if c1 != [] {
      assert (c1 + c2)[0] == c1[0] && (c1 + c2)[1..] == c1[1..] + c2;
      EscalatedAppend(bases, c1[1..], c2);
    } else {
      assert c1 + c2 == c2;
    }
  }

  lemma EscalatedSingle(bases: seq<PolicyRule>, cand: PolicyRule)
    ensures Escalated(bases, [cand]) == if CoveredBy(bases, cand) then [] else [cand]
  {
    assert [cand][1..] == [];
  }

  /** With nothing to compare against, every candidate is escalated. */
  lemma {:induction false} EscalatedOverNothing(cands: seq<PolicyRule>)
    ensures Escalated([], cands) == cands
  {
    if cands != [] {
      EscalatedOverNothing(cands[1..]);
      assert cands == [cands[0]] + cands[1..];
    }
  }

  /** When every candidate is covered, nothing is escalated. */
  lemma {:induction false} EscalatedAllCovered(bases: seq<PolicyRule>, cands: seq<PolicyRule>)
    requires forall e :: e in cands ==> CoveredBy(bases, e)
    ensures Escalated(bases, cands) == []
  {
    if cands != [] {
      assert cands[0] in cands;
      assert forall e :: e in cands[1..] ==> e in cands;
      EscalatedAllCovered(bases, cands[1..]);
    }
  }

  /** An empty base escalates the whole expansion of the candidate. */
  lemma EmptyBaseEscalatesAll(escalationRules: seq<PolicyRule>)
    ensures IsRuleEscalation([], escalationRules) == ExtendRules(escalationRules)
  {
    assert Atoms([]) == [];
    assert ExtendRules([]) == Ok([]);
    if ExtendRules(escalationRules).Ok? {
      EscalatedOverNothing(ExtendRules(escalationRules).value);
    }
  }

  /** An atomic entry covers itself. */
  lemma AtomicCoversItself(e: PolicyRule)
    requires Atomic(e)
    ensures Covers(e, e)
  {
  }

  /** A rule list never escalates against itself. */
  lemma NoSelfEscalation(rules: seq<PolicyRule>)
    requires ExtendRules(rules).Ok?
    ensures IsRuleEscalation(rules, rules) == Ok([])
  {
    var ext := ExtendRules(rules).value;
    forall e | e in ext ensures CoveredBy(ext, e) {
      var i :| 0 <= i < |ext| && ext[i] == e;
      AtomicCoversItself(ext[i]);
    }
    EscalatedAllCovered(ext, ext);
  }

  /** Covers reads only the key of the base entry. */
  lemma CoveredByKeys(bases1: seq<PolicyRule>, bases2: seq<PolicyRule>, cand: PolicyRule)
    requires Keys(bases1) == Keys(bases2)
    ensures CoveredBy(bases1, cand) == CoveredBy(bases2, cand)
  {
    assert |bases1| == |Keys(bases1)| == |bases2|;
    forall i | 0 <= i < |bases1| ensures Covers(bases1[i], cand) == Covers(bases2[i], cand) {
      assert Key(bases1[i]) == Keys(bases1)[i] == Keys(bases2)[i] == Key(bases2[i]);
      KeyFields(bases1[i], bases2[i]);
    }
  }

  lemma {:induction false} EscalatedBaseKeys(bases1: seq<PolicyRule>, bases2: seq<PolicyRule>, cands: seq<PolicyRule>)
    requires Keys(bases1) == Keys(bases2)
    ensures Escalated(bases1, cands) == Escalated(bases2, cands)
  {
    if cands != [] {
      CoveredByKeys(bases1, bases2, cands[0]);
      EscalatedBaseKeys(bases1, bases2, cands[1..]);
    }
  }

  /** The verbs of the base rules are never consulted: two bases that differ only
      in verbs give the same escalation for every candidate. */
  lemma BaseVerbsIgnored(base1: seq<PolicyRule>, base2: seq<PolicyRule>, escalationRules: seq<PolicyRule>)
    requires Keys(base1) == Keys(base2)
    ensures IsRuleEscalation(base1, escalationRules) == IsRuleEscalation(base2, escalationRules)
  {
    ExtendRulesKeys(base1, base2);
    if ExtendRules(base1).Ok? && ExtendRules(escalationRules).Ok? {
      EscalatedBaseKeys(ExtendRules(base1).value, ExtendRules(base2).value, ExtendRules(escalationRules).value);
    }
  }

  /** Holding the same keys as the candidate is enough, whatever the verbs: a
      candidate granting more verbs on the same resources is not an escalation. */
  lemma SameKeysNeverEscalate(baseRules: seq<PolicyRule>, escalationRules: seq<PolicyRule>)
    requires Keys(baseRules) == Keys(escalationRules)
    requires ExtendRules(escalationRules).Ok?
    ensures IsRuleEscalation(baseRules, escalationRules) == Ok([])
  {
    BaseVerbsIgnored(baseRules, escalationRules, escalationRules);
    NoSelfEscalation(escalationRules);
  }

  /** A single atomic rule is its own expansion. */
  lemma ExtendSingleAtomic(rule: PolicyRule)
    requires Atomic(rule)
    ensures ExtendRules([rule]) == Ok([rule])
  {
    ExtendRulesOfNormal([rule]);
  }

  /** A named base entry covers the unnamed candidate for the same resource,
      whatever the verbs. */
  lemma NamedBaseCoversUnnamed(group: string, resource: string, name: string, verbs1: seq<string>, verbs2: seq<string>)
    ensures IsRuleEscalation([PolicyRule(verbs1, [group], [resource], [name], [])],
                             [PolicyRule(verbs2, [group], [resource], [], [])]) == Ok([])
  {
    var named := PolicyRule(verbs1, [group], [resource], [name], []);
    var unnamed := PolicyRule(verbs2, [group], [resource], [], []);
    ExtendSingleAtomic(named);
    ExtendSingleAtomic(unnamed);
    assert [named][0] == named && Covers(named, unnamed);
    EscalatedSingle([named], unnamed);
  }

  /** An unnamed base entry does not cover a named candidate, whatever the verbs. */
  lemma UnnamedBaseMissesNamed(group: string, resource: string, name: string, verbs1: seq<string>, verbs2: seq<string>)
    ensures IsRuleEscalation([PolicyRule(verbs1, [group], [resource], [], [])],
                             [PolicyRule(verbs2, [group], [resource], [name], [])])
            == Ok([PolicyRule(verbs2, [group], [resource], [name], [])])
  {
    var named := PolicyRule(verbs2, [group], [resource], [name], []);
    var unnamed := PolicyRule(verbs1, [group], [resource], [], []);
    ExtendSingleAtomic(named);
    ExtendSingleAtomic(unnamed);
    assert !Covers(unnamed, named);
    assert !CoveredBy([unnamed], named);
    EscalatedSingle([unnamed], named);
  }
}

=== FILE: outcomes.dfy ===
/** Failure-carrying datatypes shared by the whole model.
    - Option<T>: a value that may be absent (Go's `error` that may be nil);
    - Result<T>: a Go `(T, error)` pair where exactly one side is meaningful;
    - Outcome<T>: a computation that either finishes or stops with a Go runtime
      panic (index out of range, nil pointer dereference).
 */
module Outcomes {

  datatype Option<+T> = None | Some(value: T)

  /** A value, or the text of the error that was returned instead of it. */
  datatype Result<+T> = Success(value: T) | Failure(error: string)

  /** A value, or a runtime panic that aborted the evaluation. */
  datatype Outcome<+T> = Ok(value: T) | Panic
}

=== FILE: rules.dfy ===
/** The rule normalizer of util/rules.go: ContainsRule, AddRule, AddRules and
    ExtendRules over Kubernetes RBAC policy rules.

    Every comparison looks at the FIRST API group, resource, resource name or
    non-resource URL of a rule only; ExtendRules makes that sound by expanding
    each rule into atomic entries that carry one value per field. */
module Rules {
  import opened Outcomes
  import opened Verbs

  /** rbacv1.PolicyRule: every field is a list of strings. */
  datatype PolicyRule = PolicyRule(
    verbs: seq<string>,
    apiGroups: seq<string>,
    resources: seq<string>,
    resourceNames: seq<string>,
    nonResourceURLs: seq<string>)

  /** The part of a rule that every lookup compares: everything but the verbs. */
  function Key(rule: PolicyRule): PolicyRule {
    rule.(verbs := [])
  }

  function Keys(rules: seq<PolicyRule>): (r: seq<PolicyRule>)
    ensures |r| == |rules|
    ensures forall i :: 0 <= i < |rules| ==> r[i] == Key(rules[i])
  {
    seq(|rules|, i requires 0 <= i < |rules| => Key(rules[i]))
  }

  predicate IsUrl(rule: PolicyRule) {
    |rule.nonResourceURLs| > 0
  }

  predicate IsNamed(rule: PolicyRule) {
    |rule.resourceNames| > 0
  }

  /** Both rules carry an API group and a resource, and their first ones agree. */
  predicate SameResource(a: PolicyRule, b: PolicyRule) {
    && |a.apiGroups| > 0 && |a.resources| > 0
    && |b.apiGroups| > 0 && |b.resources| > 0
    && a.apiGroups[0] == b.apiGroups[0]
    && a.resources[0] == b.resources[0]
  }

  /** An atomic entry: exactly one URL and nothing else, or exactly one API group,
      one resource and at most one resource name, without URLs. */
  predicate Atomic(rule: PolicyRule) {
    || (|rule.nonResourceURLs| == 1 && rule.apiGroups == [] && rule.resources == [] && rule.resourceNames == [])
    || (rule.nonResourceURLs == [] && |rule.apiGroups| == 1 && |rule.resources| == 1 && |rule.resourceNames| <= 1)
  }

  /** An existing entry absorbs an incoming rule: a URL entry absorbs a URL rule
      with the same first URL; a resource entry without names absorbs every rule
      for the same first group and resource; a named resource entry absorbs only
      a named rule whose first name is its own. */
  predicate Absorbs(entry: PolicyRule, rule: PolicyRule) {
    if IsUrl(entry) then
      IsUrl(rule) && entry.nonResourceURLs[0] == rule.nonResourceURLs[0]
    else
      SameResource(entry, rule) && (IsNamed(entry) ==> IsNamed(rule) && entry.resourceNames[0] == rule.resourceNames[0])
  }

  /** The comparison that indexes past the end of the incoming rule's names: a
      named resource entry met by an unnamed rule for the same group and resource. */
  predicate Trips(entry: PolicyRule, rule: PolicyRule) {
    !IsUrl(entry) && SameResource(entry, rule) && IsNamed(entry) && !IsNamed(rule)
  }

  /** The loop of ContainsRule from position `index` on. */
  function ContainsFrom(rules: seq<PolicyRule>, rule: PolicyRule, index: nat): (r: Outcome<int>)
    requires index <= |rules|
    ensures r.Ok? ==> r.value == -1 || index <= r.value < |rules|
    ensures r.Ok? && r.value >= 0 ==>
              && Absorbs(rules[r.value], rule)
              && forall j :: index <= j < r.value ==> !Absorbs(rules[j], rule) && !Trips(rules[j], rule)
    ensures r == Ok(-1) <==> forall j :: index <= j < |rules| ==> !Absorbs(rules[j], rule) && !Trips(rules[j], rule)
    ensures r.Panic? ==>
              exists i :: index <= i < |rules| && Trips(rules[i], rule)
                && forall j :: index <= j < i ==> !Absorbs(rules[j], rule) && !Trips(rules[j], rule)
    decreases |rules| - index
  {
    if index == |rules| then Ok(-1)
    else
      var loopRule := rules[index];
      if |loopRule.nonResourceURLs| > 0 then
        if |rule.nonResourceURLs| > 0 && loopRule.nonResourceURLs[0] == rule.nonResourceURLs[0] then Ok(index)
        else ContainsFrom(rules, rule, index + 1)
      else if && |loopRule.apiGroups| > 0 && |loopRule.resources| > 0
              && |rule.apiGroups| > 0 && |rule.resources| > 0
              && loopRule.apiGroups[0] == rule.apiGroups[0] && loopRule.resources[0] == rule.resources[0]
      then
        if |loopRule.resourceNames| > 0 then
          // rule.ResourceNames[0] is read without a length check
          if |rule.resourceNames| == 0 then Panic
          else if loopRule.resourceNames[0] == rule.resourceNames[0] then Ok(index)
          else ContainsFrom(rules, rule, index + 1)
        else Ok(index)
      else ContainsFrom(rules, rule, index + 1)
  }

  /** ContainsRule: the index of the first entry that absorbs `rule`, -1 when none
      does, or a panic when a named entry is met by an unnamed rule first. */
  function ContainsRule(rules: seq<PolicyRule>, rule: PolicyRule): (r: Outcome<int>)
    ensures r.Ok? ==> -1 <= r.value < |rules|
    ensures r.Ok? && r.value >= 0 ==>
              && Absorbs(rules[r.value], rule)
              && forall j :: 0 <= j < r.value ==> !Absorbs(rules[j], rule) && !Trips(rules[j], rule)
    ensures r == Ok(-1) <==> forall j :: 0 <= j < |rules| ==> !Absorbs(rules[j], rule) && !Trips(rules[j], rule)
    ensures r.Panic? ==>
              exists i :: 0 <= i < |rules| && Trips(rules[i], rule)
                && forall j :: 0 <= j < i ==> !Absorbs(rules[j], rule) && !Trips(rules[j], rule)
  {
    ContainsFrom(rules, rule, 0)
  }

  /** AddRule: merges the verbs of `rule` into the first entry that absorbs it, or
      appends `rule` when no entry does. */
  function AddRule(rules: seq<PolicyRule>, rule: PolicyRule): (r: Outcome<seq<PolicyRule>>)
    ensures r.Panic? <==> ContainsRule(rules, rule).Panic?
    ensures (forall j :: 0 <= j < |rules| ==> !Absorbs(rules[j], rule) && !Trips(rules[j], rule))
            ==> r == Ok(rules + [rule])
    ensures r.Ok? ==> |r.value| == |rules| || r.value == rules + [rule]
    ensures r.Ok? ==> (|r.value| == |rules| <==> Covered(rules, rule))
    ensures r.Ok? && |r.value| == |rules| ==>
              exists i :: 0 <= i < |rules| && Absorbs(rules[i], rule)
                && (forall j :: 0 <= j < i ==> !Absorbs(rules[j], rule))
                && r.value[i].verbs == MergeRuleVerbs(rules[i].verbs, rule.verbs)
                && Key(r.value[i]) == Key(rules[i])
                && (forall j :: 0 <= j < |rules| && j != i ==> r.value[j] == rules[j])
  {
    match ContainsRule(rules, rule)
    case Panic => Panic
    case Ok(index) =>
      if index >= 0 then
        Ok(rules[index := rules[index].(verbs := MergeRuleVerbs(rules[index].verbs, rule.verbs))])
      else
        Ok(rules + [rule])
  }

  /** AddRules: the left fold of AddRule over `addRules`. Existing entries keep
      their place and key; every new entry comes from `addRules`. */
  function AddRules(rules: seq<PolicyRule>, addRules: seq<PolicyRule>): (r: Outcome<seq<PolicyRule>>)
    ensures r.Ok? ==> |rules| <= |r.value| <= |rules| + |addRules|
    ensures r.Ok? ==> forall i :: 0 <= i < |rules| ==> Key(r.value[i]) == Key(rules[i])
    ensures r.Ok? ==> forall i :: |rules| <= i < |r.value| ==>
              exists k :: 0 <= k < |addRules| && Key(addRules[k]) == Key(r.value[i])
    decreases |addRules|
  {
    if addRules == [] then Ok(rules)
    else
      match AddRule(rules, addRules[0])
      case Panic => Panic
      case Ok(next) =>
        var r := AddRules(next, addRules[1..]);
        assert r.Ok? ==> forall i :: |next| <= i < |r.value| ==>
                 exists k :: 0 <= k < |addRules| && Key(addRules[k]) == Key(r.value[i]) by {
          if r.Ok? {
            forall i | |next| <= i < |r.value|
              ensures exists k :: 0 <= k < |addRules| && Key(addRules[k]) == Key(r.value[i])
            {
              var k :| 0 <= k < |addRules[1..]| && Key(addRules[1..][k]) == Key(r.value[i]);
              assert addRules[1..][k] == addRules[k + 1];
            }
          }
        }
        r
  }

  // ----- Expansion into atomic entries -----

  /** One atomic entry per resource name. */
  function NameAtoms(group: string, resource: string, names: seq<string>, verbs: seq<string>): seq<PolicyRule> {
    if names == [] then []
    else [PolicyRule(verbs, [group], [resource], [names[0]], [])] + NameAtoms(group, resource, names[1..], verbs)
  }

  /** For one API group, the entries of every resource: one per name, or one
      without a name when the rule lists no names. */
  function ResourceAtoms(group: string, resources: seq<string>, names: seq<string>, verbs: seq<string>): seq<PolicyRule> {
    if resources == [] then []
    else
      (if |names| > 0 then NameAtoms(group, resources[0], names, verbs)
       else [PolicyRule(verbs, [group], [resources[0]], [], [])])
      + ResourceAtoms(group, resources[1..], names, verbs)
  }

  function GroupAtoms(groups: seq<string>, resources: seq<string>, names: seq<string>, verbs: seq<string>): seq<PolicyRule> {
    if groups == [] then []
    else ResourceAtoms(groups[0], resources, names, verbs) + GroupAtoms(groups[1..], resources, names, verbs)
  }

  /** One atomic entry per non-resource URL. */
  function UrlAtoms(urls: seq<string>, verbs: seq<string>): seq<PolicyRule> {
    if urls == [] then []
    else [PolicyRule(verbs, [], [], [], [urls[0]])] + UrlAtoms(urls[1..], verbs)
  }

  /** The entries one rule expands to, in the order ExtendRules adds them:
      groups x resources (x names) first, then the URLs. */
  function RuleAtoms(rule: PolicyRule): seq<PolicyRule> {
    GroupAtoms(rule.apiGroups, rule.resources, rule.resourceNames, rule.verbs)
    + UrlAtoms(rule.nonResourceURLs, rule.verbs)
  }

  function Atoms(rules: seq<PolicyRule>): seq<PolicyRule> {
    if rules == [] then [] else RuleAtoms(rules[0]) + Atoms(rules[1..])
  }

  /** The shape ExtendRules produces: atomic entries, none of which is absorbed
      or tripped on by an earlier one. */
  predicate Normal(rules: seq<PolicyRule>) {
    && (forall i :: 0 <= i < |rules| ==> Atomic(rules[i]))
    && (forall i, j :: 0 <= i < j < |rules| ==> !Absorbs(rules[i], rules[j]) && !Trips(rules[i], rules[j]))
  }

  /** ExtendRules: every rule expanded into atomic entries and folded in with
      AddRule, so that entries for the same key are merged. Each atom carries the
      verbs of its rule (RuleAtomsVerbs); the entry absorbing it grants them all,
      and an entry holds no verb that no atom it absorbs carries. */
  function ExtendRules(rules: seq<PolicyRule>): (r: Outcome<seq<PolicyRule>>)
    ensures r.Ok? ==> Normal(r.value)
    ensures r.Ok? ==> forall i :: 0 <= i < |r.value| ==>
              exists k :: 0 <= k < |Atoms(rules)| && Key(Atoms(rules)[k]) == Key(r.value[i])
    ensures r.Ok? ==> forall a :: a in Atoms(rules) ==> Covered(r.value, a)
    ensures r.Ok? ==> forall a :: a in Atoms(rules) ==> Permits(r.value, a)
    ensures r.Ok? ==> VerbsFrom([], Atoms(rules), r.value)
  {
    AtomsAreAtomic(rules);
    AddRulesNormal([], Atoms(rules));
    AddRulesAbsorbs([], Atoms(rules));
    AddRulesGrants([], Atoms(rules));
    AddRulesVerbsFrom([], Atoms(rules));
    var r := AddRules([], Atoms(rules));
    assert r.Ok? ==> forall i :: 0 <= i < |r.value| ==>
             exists k :: 0 <= k < |Atoms(rules)| && Key(Atoms(rules)[k]) == Key(r.value[i]) by {
      if r.Ok? {
        forall i | 0 <= i < |r.value|
          ensures exists k :: 0 <= k < |Atoms(rules)| && Key(Atoms(rules)[k]) == Key(r.value[i])
        {
          var none: seq<PolicyRule> := [];
          assert |none| <= i;
        }
      }
    }
    r
  }

  /** Keys carry over: when every entry of `extended` has the key of an atom and
      every entry of `out` past those of `into` has the key of an entry of
      `extended`, those entries of `out` have the key of an atom. */
  lemma KeysFromAtoms(atoms: seq<PolicyRule>, into: seq<PolicyRule>, extended: seq<PolicyRule>, out: seq<PolicyRule>)
    requires forall i :: 0 <= i < |extended| ==> exists k :: 0 <= k < |atoms| && Key(atoms[k]) == Key(extended[i])
    requires forall i :: |into| <= i < |out| ==> exists k :: 0 <= k < |extended| && Key(extended[k]) == Key(out[i])
    ensures forall i :: |into| <= i < |out| ==> HasKeyOf(atoms, out[i])
  {
    forall i | |into| <= i < |out|
      ensures HasKeyOf(atoms, out[i])
    {
      var k :| 0 <= k < |extended| && Key(extended[k]) == Key(out[i]);
      var m :| 0 <= m < |atoms| && Key(atoms[m]) == Key(extended[k]);
      assert atoms[m] in atoms && Key(atoms[m]) == Key(out[i]);
    }
  }

  /** Some entry of `rules` has the key of `rule`. */
  predicate HasKeyOf(rules: seq<PolicyRule>, rule: PolicyRule) {
    exists a :: a in rules && Key(a) == Key(rule)
  }

  /** Some entry of `rules` absorbs `rule`. */
  predicate Covered(rules: seq<PolicyRule>, rule: PolicyRule) {
    exists i :: 0 <= i < |rules| && Absorbs(rules[i], rule)
  }

  // ----- Lemmas -----

  lemma {:induction false} AtomsAreAtomic(rules: seq<PolicyRule>)
    ensures forall a :: a in Atoms(rules) ==> Atomic(a)
  {
    if rules != [] {
      AtomsAreAtomic(rules[1..]);
      var rule := rules[0];
      GroupAtomsAtomic(rule.apiGroups, rule.resources, rule.resourceNames, rule.verbs);
      UrlAtomsAtomic(rule.nonResourceURLs, rule.verbs);
    }
  }

  /** Every atom of a rule carries that rule's whole verb list. */
  lemma RuleAtomsVerbs(rule: PolicyRule)
    ensures forall a :: a in RuleAtoms(rule) ==> a.verbs == rule.verbs
  {
    GroupAtomsVerbs(rule.apiGroups, rule.resources, rule.resourceNames, rule.verbs);
    UrlAtomsVerbs(rule.nonResourceURLs, rule.verbs);
  }

  lemma GroupAtomsVerbs(groups: seq<string>, resources: seq<string>, names: seq<string>, verbs: seq<string>)
    ensures forall a :: a in GroupAtoms(groups, resources, names, verbs) ==> a.verbs == verbs
  {
    if groups != [] {
      ResourceAtomsVerbs(groups[0], resources, names, verbs);
      GroupAtomsVerbs(groups[1..], resources, names, verbs);
    }
  }

  lemma ResourceAtomsVerbs(group: string, resources: seq<string>, names: seq<string>, verbs: seq<string>)
    ensures forall a :: a in ResourceAtoms(group, resources, names, verbs) ==> a.verbs == verbs
  {
    if resources != [] {
      NameAtomsVerbs(group, resources[0], names, verbs);
      ResourceAtomsVerbs(group, resources[1..], names, verbs);
    }
  }

  lemma NameAtomsVerbs(group: string, resource: string, names: seq<string>, verbs: seq<string>)
    ensures forall a :: a in NameAtoms(group, resource, names, verbs) ==> a.verbs == verbs
  {
    if names != [] {
      NameAtomsVerbs(group, resource, names[1..], verbs);
    }
  }

  lemma UrlAtomsVerbs(urls: seq<string>, verbs: seq<string>)
    ensures forall a :: a in UrlAtoms(urls, verbs) ==> a.verbs == verbs
  {
    if urls != [] {
      UrlAtomsVerbs(urls[1..], verbs);
    }
  }

  lemma GroupAtomsAtomic(groups: seq<string>, resources: seq<string>, names: seq<string>, verbs: seq<string>)
    ensures forall a :: a in GroupAtoms(groups, resources, names, verbs) ==> Atomic(a)
  {
    if groups != [] {
      ResourceAtomsAtomic(groups[0], resources, names, verbs);
      GroupAtomsAtomic(groups[1..], resources, names, verbs);
    }
  }

  lemma ResourceAtomsAtomic(group: string, resources: seq<string>, names: seq<string>, verbs: seq<string>)
    ensures forall a :: a in ResourceAtoms(group, resources, names, verbs) ==> Atomic(a)
  {
    if resources != [] {
      NameAtomsAtomic(group, resources[0], names, verbs);
      ResourceAtomsAtomic(group, resources[1..], names, verbs);
    }
  }

  lemma NameAtomsAtomic(group: string, resource: string, names: seq<string>, verbs: seq<string>)
    ensures forall a :: a in NameAtoms(group, resource, names, verbs) ==> Atomic(a) && IsNamed(a)
  {
    if names != [] {
      NameAtomsAtomic(group, resource, names[1..], verbs);
    }
  }

  lemma UrlAtomsAtomic(urls: seq<string>, verbs: seq<string>)
    ensures forall a :: a in UrlAtoms(urls, verbs) ==> Atomic(a) && IsUrl(a)
  {
    if urls != [] {
      UrlAtomsAtomic(urls[1..], verbs);
    }
  }

  /** An atomic entry absorbs itself, whatever the verbs on either side. */
  lemma AtomicAbsorbsOwnKey(entry: PolicyRule, rule: PolicyRule)
    requires Atomic(entry) && Key(entry) == Key(rule)
    ensures Absorbs(entry, rule)
  {
    assert entry.nonResourceURLs == rule.nonResourceURLs && entry.apiGroups == rule.apiGroups;
    assert entry.resources == rule.resources && entry.resourceNames == rule.resourceNames;
  }

  /** AddRule keeps the ExtendRules shape when the incoming rule is atomic. */
  lemma AddRuleNormal(rules: seq<PolicyRule>, rule: PolicyRule)
    requires Normal(rules) && Atomic(rule)
    ensures AddRule(rules, rule).Ok? ==> Normal(AddRule(rules, rule).value)
  {
    var r := AddRule(rules, rule);
    if r.Ok? && |r.value| == |rules| {
      var s := r.value;
      forall i | 0 <= i < |s| ensures Key(s[i]) == Key(rules[i]) {}
      forall i, j | 0 <= i < j < |s| ensures !Absorbs(s[i], s[j]) && !Trips(s[i], s[j]) {
        assert Key(s[i]) == Key(rules[i]) && Key(s[j]) == Key(rules[j]);
        KeyDecides(s[i], rules[i], s[j], rules[j]);
      }
      forall i | 0 <= i < |s| ensures Atomic(s[i]) {
        assert Key(s[i]) == Key(rules[i]);
        assert s[i].apiGroups == Key(s[i]).apiGroups;
        assert rules[i].apiGroups == Key(rules[i]).apiGroups;
      }
    }
  }

  /** Absorbs, Trips and Atomic read nothing but the key. */
  lemma KeyDecides(a1: PolicyRule, a2: PolicyRule, b1: PolicyRule, b2: PolicyRule)
    requires Key(a1) == Key(a2) && Key(b1) == Key(b2)
    ensures Absorbs(a1, b1) == Absorbs(a2, b2)
    ensures Trips(a1, b1) == Trips(a2, b2)
    ensures Atomic(a1) == Atomic(a2)
  {
    assert a1.apiGroups == Key(a1).apiGroups && a2.apiGroups == Key(a2).apiGroups;
    assert a1.resources == Key(a1).resources && a2.resources == Key(a2).resources;
    assert a1.resourceNames == Key(a1).resourceNames && a2.resourceNames == Key(a2).resourceNames;
    assert a1.nonResourceURLs == Key(a1).nonResourceURLs && a2.nonResourceURLs == Key(a2).nonResourceURLs;
    assert b1.apiGroups == Key(b1).apiGroups && b2.apiGroups == Key(b2).apiGroups;
    assert b1.resources == Key(b1).resources && b2.resources == Key(b2).resources;
    assert b1.resourceNames == Key(b1).resourceNames && b2.resourceNames == Key(b2).resourceNames;
    assert b1.nonResourceURLs == Key(b1).nonResourceURLs && b2.nonResourceURLs == Key(b2).nonResourceURLs;
  }

  /** AddRules keeps the ExtendRules shape when every added rule is atomic. */
  lemma {:induction false} AddRulesNormal(rules: seq<PolicyRule>, addRules: seq<PolicyRule>)
    requires Normal(rules)
    requires forall a :: a in addRules ==> Atomic(a)
    ensures AddRules(rules, addRules).Ok? ==> Normal(AddRules(rules, addRules).value)
    decreases |addRules|
  {
    if addRules != [] {
      assert addRules[0] in addRules;
      AddRuleNormal(rules, addRules[0]);
      match AddRule(rules, addRules[0])
      case Panic =>
      case Ok(next) =>
        assert forall a :: a in addRules[1..] ==> a in addRules;
        AddRulesNormal(next, addRules[1..]);
    }
  }

  /** After AddRule, some entry absorbs the atomic rule just added. */
  lemma AddRuleCovers(rules: seq<PolicyRule>, rule: PolicyRule)
    requires Atomic(rule) && AddRule(rules, rule).Ok?
    ensures Covered(AddRule(rules, rule).value, rule)
  {
    var next := AddRule(rules, rule).value;
    if |next| == |rules| {
      var i :| 0 <= i < |rules| && Absorbs(rules[i], rule) && Key(next[i]) == Key(rules[i]);
      KeyDecides(next[i], rules[i], rule, rule);
    } else {
      assert next[|rules|] == rule;
      AtomicAbsorbsOwnKey(rule, rule);
    }
  }

  /** Coverage survives any change that keeps the keys of the existing entries. */
  lemma CoveredByPrefixKeys(s: seq<PolicyRule>, t: seq<PolicyRule>, rule: PolicyRule)
    requires Covered(s, rule)
    requires |s| <= |t| && forall i :: 0 <= i < |s| ==> Key(t[i]) == Key(s[i])
    ensures Covered(t, rule)
  {
    var i :| 0 <= i < |s| && Absorbs(s[i], rule);
    KeyDecides(t[i], s[i], rule, rule);
  }

  /** Every atomic rule added by AddRules ends up absorbed by some entry. */
  lemma {:induction false} AddRulesAbsorbs(rules: seq<PolicyRule>, addRules: seq<PolicyRule>)
    requires forall a :: a in addRules ==> Atomic(a)
    ensures AddRules(rules, addRules).Ok? ==>
              forall a :: a in addRules ==> Covered(AddRules(rules, addRules).value, a)
    decreases |addRules|
  {
    if addRules != [] && AddRules(rules, addRules).Ok? {
      var rule := addRules[0];
      var rest := addRules[1..];
      assert rule in addRules;
      var next := AddRule(rules, rule).value;
      var out := AddRules(next, rest).value;
      assert AddRules(rules, addRules).value == out;
      assert forall a :: a in rest ==> a in addRules;
      AddRulesAbsorbs(next, rest);
      AddRuleCovers(rules, rule);
      CoveredByPrefixKeys(next, out, rule);
      forall a | a in addRules
        ensures Covered(out, a)
      {
        if a != rule {
          var k :| 0 <= k < |addRules| && addRules[k] == a;
          assert rest[k - 1] == a;
        }
      }
    }
  }

  /** Some entry of `rules` absorbs `rule` and grants all of its verbs. */
  predicate Permits(rules: seq<PolicyRule>, rule: PolicyRule) {
    exists i :: 0 <= i < |rules| && Absorbs(rules[i], rule) && GrantsVerbs(rules[i].verbs, rule.verbs)
  }

  /** Every entry of `s` still grants its verbs at the same place in `t`. */
  predicate KeepsVerbs(s: seq<PolicyRule>, t: seq<PolicyRule>) {
    |s| <= |t| && forall i :: 0 <= i < |s| ==> GrantsVerbs(t[i].verbs, s[i].verbs)
  }

  /** Every verb of an entry of `t` is the verb the entry had at that place in
      `s`, or a verb of a rule of `added` that the entry absorbs. */
  predicate VerbsFrom(s: seq<PolicyRule>, added: seq<PolicyRule>, t: seq<PolicyRule>) {
    forall i, v :: 0 <= i < |t| && v in t[i].verbs ==>
      (i < |s| && v in s[i].verbs) || exists a :: a in added && Absorbs(t[i], a) && v in a.verbs
  }

  /** The verbs AddRule leaves: every entry still grants the verbs it had, some
      entry absorbs the atomic rule and grants its verbs, and every verb of an
      entry was already that entry's or is a verb of the rule. */
  lemma AddRuleVerbs(rules: seq<PolicyRule>, rule: PolicyRule)
    requires Atomic(rule) && AddRule(rules, rule).Ok?
    ensures KeepsVerbs(rules, AddRule(rules, rule).value)
    ensures Permits(AddRule(rules, rule).value, rule)
    ensures VerbsFrom(rules, [rule], AddRule(rules, rule).value)
  {
    var next := AddRule(rules, rule).value;
    var index := ContainsRule(rules, rule).value;
    if index >= 0 {
      MergeGrants(rules[index].verbs, rule.verbs);
      KeyDecides(next[index], rules[index], rule, rule);
      assert Absorbs(next[index], rule) && GrantsVerbs(next[index].verbs, rule.verbs);
    } else {
      AtomicAbsorbsOwnKey(rule, rule);
      assert next[|rules|] == rule;
    }
    assert rule in [rule];
  }

  /** AddRules loses no verb, for atomic added rules: every existing entry still
      grants its verbs, and every added rule is absorbed by an entry that grants
      its verbs. */
  lemma {:induction false} AddRulesGrants(rules: seq<PolicyRule>, addRules: seq<PolicyRule>)
    requires forall a :: a in addRules ==> Atomic(a)
    ensures var r := AddRules(rules, addRules);
            r.Ok? ==> KeepsVerbs(rules, r.value) && forall a :: a in addRules ==> Permits(r.value, a)
    decreases |addRules|
  {
    if addRules != [] && AddRules(rules, addRules).Ok? {
      var rule := addRules[0];
      var rest := addRules[1..];
      assert forall a :: a in rest ==> a in addRules;
      var next := AddRule(rules, rule).value;
      var out := AddRules(next, rest).value;
      assert AddRules(rules, addRules).value == out;
      AddRuleVerbs(rules, rule);
      AddRulesGrants(next, rest);
      AddRulesGrantsStep(rules, addRules, next, out);
    }
  }

  /** One turn of the fold: `next` is AddRule's result for the first added rule,
      and `out` what the rest of the fold makes of it. */
  lemma AddRulesGrantsStep(rules: seq<PolicyRule>, addRules: seq<PolicyRule>, next: seq<PolicyRule>, out: seq<PolicyRule>)
    requires addRules != []
    requires |next| <= |out| && forall i :: 0 <= i < |next| ==> Key(out[i]) == Key(next[i])
    requires KeepsVerbs(rules, next) && Permits(next, addRules[0])
    requires KeepsVerbs(next, out) && forall a :: a in addRules[1..] ==> Permits(out, a)
    ensures KeepsVerbs(rules, out) && forall a :: a in addRules ==> Permits(out, a)
  {
    var rule := addRules[0];
    forall i | 0 <= i < |rules|
      ensures GrantsVerbs(out[i].verbs, rules[i].verbs)
    {
      GrantsVerbsTransitive(out[i].verbs, next[i].verbs, rules[i].verbs);
    }
    var j :| 0 <= j < |next| && Absorbs(next[j], rule) && GrantsVerbs(next[j].verbs, rule.verbs);
    KeyDecides(out[j], next[j], rule, rule);
    GrantsVerbsTransitive(out[j].verbs, next[j].verbs, rule.verbs);
    assert Permits(out, rule);
    forall a | a in addRules ensures Permits(out, a) {
      if a != rule {
        var k :| 0 <= k < |addRules| && addRules[k] == a;
        assert addRules[1..][k - 1] == a;
      }
    }
  }

  /** AddRules invents no verb, for atomic added rules: every verb of an entry is
      one the entry had, or a verb of an added rule that the entry absorbs. */
  lemma {:induction false} AddRulesVerbsFrom(rules: seq<PolicyRule>, addRules: seq<PolicyRule>)
    requires forall a :: a in addRules ==> Atomic(a)
    ensures var r := AddRules(rules, addRules);
            r.Ok? ==> VerbsFrom(rules, addRules, r.value)
    decreases |addRules|
  {
    if addRules != [] && AddRules(rules, addRules).Ok? {
      var rule := addRules[0];
      var rest := addRules[1..];
      assert forall a :: a in rest ==> a in addRules;
      var next := AddRule(rules, rule).value;
      var out := AddRules(next, rest).value;
      assert AddRules(rules, addRules).value == out;
      AddRuleVerbs(rules, rule);
      AddRulesVerbsFrom(next, rest);
      AddRulesVerbsFromStep(rules, addRules, next, out);
    }
  }

  lemma AddRulesVerbsFromStep(rules: seq<PolicyRule>, addRules: seq<PolicyRule>, next: seq<PolicyRule>, out: seq<PolicyRule>)
    requires addRules != []
    requires |next| <= |out| && forall i :: 0 <= i < |next| ==> Key(out[i]) == Key(next[i])
    requires VerbsFrom(rules, [addRules[0]], next) && VerbsFrom(next, addRules[1..], out)
    ensures VerbsFrom(rules, addRules, out)
  {
    var rule := addRules[0];
    var rest := addRules[1..];
    forall i, v | 0 <= i < |out| && v in out[i].verbs
      ensures (i < |rules| && v in rules[i].verbs) || exists a :: a in addRules && Absorbs(out[i], a) && v in a.verbs
    {
      if i < |next| && v in next[i].verbs {
        if !(i < |rules| && v in rules[i].verbs) {
          var a :| a in [rule] && Absorbs(next[i], a) && v in a.verbs;
          KeyDecides(out[i], next[i], rule, rule);
          assert a in addRules;
        }
      } else {
        var a :| a in rest && Absorbs(out[i], a) && v in a.verbs;
        assert a in addRules;
      }
    }
  }

  /** With no tripping pair among the entries and the added rules, AddRules never panics. */
  lemma {:induction false} AddRulesNoPanic(rules: seq<PolicyRule>, addRules: seq<PolicyRule>)
    requires forall e, a :: e in rules && a in addRules ==> !Trips(e, a)
    requires forall a, b :: a in addRules && b in addRules ==> !Trips(a, b)
    ensures AddRules(rules, addRules).Ok?
    decreases |addRules|
  {
    if addRules != [] {
      var rule := addRules[0];
      assert rule in addRules;
      assert !ContainsRule(rules, rule).Panic?;
      var next := AddRule(rules, rule).value;
      assert forall a :: a in addRules[1..] ==> a in addRules;
      forall e, a | e in next && a in addRules[1..] ensures !Trips(e, a) {
        var i :| 0 <= i < |next| && next[i] == e;
        if i < |rules| {
          assert Key(next[i]) == Key(rules[i]);
          KeyDecides(next[i], rules[i], a, a);
          assert rules[i] in rules;
        } else {
          assert e == rule;
        }
      }
      AddRulesNoPanic(next, addRules[1..]);
    }
  }

  /** An atomic rule is its own expansion. */
  lemma AtomicRuleAtoms(rule: PolicyRule)
    requires Atomic(rule)
    ensures RuleAtoms(rule) == [rule]
  {
    if |rule.nonResourceURLs| == 1 {
      var u := rule.nonResourceURLs[0];
      assert rule.nonResourceURLs == [u] && [u][1..] == [];
      assert rule == PolicyRule(rule.verbs, [], [], [], [u]);
      assert UrlAtoms(rule.nonResourceURLs, rule.verbs) == [rule];
    } else {
      var g := rule.apiGroups[0];
      var res := rule.resources[0];
      assert rule.apiGroups == [g] && rule.resources == [res];
      assert ResourceAtoms(g, [res], rule.resourceNames, rule.verbs) == [rule] by {
        if |rule.resourceNames| == 1 {
          assert rule.resourceNames == [rule.resourceNames[0]];
          assert NameAtoms(g, res, rule.resourceNames, rule.verbs) == [rule];
        }
      }
      assert GroupAtoms([g], [res], rule.resourceNames, rule.verbs) == [rule];
    }
  }

  lemma {:induction false} AtomsOfAtomic(rules: seq<PolicyRule>)
    requires forall i :: 0 <= i < |rules| ==> Atomic(rules[i])
    ensures Atoms(rules) == rules
  {
    if rules != [] {
      AtomicRuleAtoms(rules[0]);
      AtomsOfAtomic(rules[1..]);
      assert rules == [rules[0]] + rules[1..];
    }
  }

  /** Each entry of a normal list is new to the entries before it. */
  lemma AddRuleFresh(rules: seq<PolicyRule>, k: nat)
    requires Normal(rules) && k < |rules|
    ensures AddRule(rules[..k], rules[k]) == Ok(rules[..k + 1])
  {
    var prefix := rules[..k];
    forall j | 0 <= j < |prefix| ensures !Absorbs(prefix[j], rules[k]) && !Trips(prefix[j], rules[k]) {
      assert prefix[j] == rules[j];
    }
    assert prefix + [rules[k]] == rules[..k + 1];
  }

  /** Adding the entries of a normal list one by one rebuilds it unchanged. */
  lemma {:induction false} AddRulesRebuilds(rules: seq<PolicyRule>, k: nat)
    requires Normal(rules) && k <= |rules|
    ensures AddRules(rules[..k], rules[k..]) == Ok(rules)
    decreases |rules| - k
  {
    if k == |rules| {
      assert rules[..k] == rules;
      assert rules[k..] == [];
    } else {
      AddRuleFresh(rules, k);
      assert rules[k..][0] == rules[k] && rules[k..][1..] == rules[k + 1..];
      AddRulesRebuilds(rules, k + 1);
    }
  }

  /** ExtendRules leaves a list in its own output shape unchanged. */
  lemma ExtendRulesOfNormal(rules: seq<PolicyRule>)
    requires Normal(rules)
    ensures ExtendRules(rules) == Ok(rules)
  {
    AtomsOfAtomic(rules);
    AddRulesRebuilds(rules, 0);
    assert rules[..0] == [] && rules[0..] == rules;
  }

  /** ExtendRules is a fixed point on its own output. */
  lemma ExtendRulesIdempotent(rules: seq<PolicyRule>)
    requires ExtendRules(rules).Ok?
    ensures ExtendRules(ExtendRules(rules).value) == ExtendRules(rules)
  {
    ExtendRulesOfNormal(ExtendRules(rules).value);
  }

  /** Rules without resource names never make ExtendRules panic. */
  lemma ExtendUnnamedNeverPanics(rules: seq<PolicyRule>)
    requires forall rule :: rule in rules ==> rule.resourceNames == []
    ensures ExtendRules(rules).Ok?
  {
    AtomsUnnamed(rules);
    AddRulesNoPanic([], Atoms(rules));
  }

  lemma {:induction false} AtomsUnnamed(rules: seq<PolicyRule>)
    requires forall rule :: rule in rules ==> rule.resourceNames == []
    ensures forall a :: a in Atoms(rules) ==> !IsNamed(a)
  {
    if rules != [] {
      assert rules[0] in rules;
      assert forall rule :: rule in rules[1..] ==> rule in rules;
      AtomsUnnamed(rules[1..]);
      GroupAtomsUnnamed(rules[0].apiGroups, rules[0].resources, rules[0].verbs);
      UrlAtomsAtomic(rules[0].nonResourceURLs, rules[0].verbs);
    }
  }

  lemma GroupAtomsUnnamed(groups: seq<string>, resources: seq<string>, verbs: seq<string>)
    ensures forall a :: a in GroupAtoms(groups, resources, [], verbs) ==> !IsNamed(a)
  {
    if groups != [] {
      ResourceAtomsUnnamed(groups[0], resources, verbs);
      GroupAtomsUnnamed(groups[1..], resources, verbs);
    }
  }

  lemma ResourceAtomsUnnamed(group: string, resources: seq<string>, verbs: seq<string>)
    ensures forall a :: a in ResourceAtoms(group, resources, [], verbs) ==> !IsNamed(a)
  {
    if resources != [] {
      ResourceAtomsUnnamed(group, resources[1..], verbs);
    }
  }

  // ----- Verbs are never consulted -----

  lemma KeyFields(a: PolicyRule, b: PolicyRule)
    requires Key(a) == Key(b)
    ensures a.apiGroups == b.apiGroups && a.resources == b.resources
    ensures a.resourceNames == b.resourceNames && a.nonResourceURLs == b.nonResourceURLs
  {
    assert a.apiGroups == Key(a).apiGroups && b.apiGroups == Key(b).apiGroups;
    assert a.resources == Key(a).resources && b.resources == Key(b).resources;
    assert a.resourceNames == Key(a).resourceNames && b.resourceNames == Key(b).resourceNames;
    assert a.nonResourceURLs == Key(a).nonResourceURLs && b.nonResourceURLs == Key(b).nonResourceURLs;
  }

  lemma KeysAppend(a: seq<PolicyRule>, b: seq<PolicyRule>)
    ensures Keys(a + b) == Keys(a) + Keys(b)
  {
  }

  /** ContainsRule never reads verbs: its result is fixed by the first entry that
      absorbs or trips on the rule, and both relations read keys only. */
  lemma ContainsRuleKeys(rules1: seq<PolicyRule>, rules2: seq<PolicyRule>, rule1: PolicyRule, rule2: PolicyRule)
    requires Keys(rules1) == Keys(rules2) && Key(rule1) == Key(rule2)
    ensures ContainsRule(rules1, rule1) == ContainsRule(rules2, rule2)
  {
    assert |rules1| == |Keys(rules1)| == |rules2|;
    forall j | 0 <= j < |rules1|
      ensures Absorbs(rules1[j], rule1) == Absorbs(rules2[j], rule2)
      ensures Trips(rules1[j], rule1) == Trips(rules2[j], rule2)
    {
      assert Key(rules1[j]) == Keys(rules1)[j] == Keys(rules2)[j] == Key(rules2[j]);
      KeyDecides(rules1[j], rules2[j], rule1, rule2);
    }
    ContainsRuleDetermined(rules1, rule1, rules2, rule2);
  }

  /** Two lookups that agree, entry by entry, on absorbing and tripping give the
      same result. */
  lemma ContainsRuleDetermined(rules1: seq<PolicyRule>, rule1: PolicyRule, rules2: seq<PolicyRule>, rule2: PolicyRule)
    requires |rules1| == |rules2|
    requires forall j :: 0 <= j < |rules1| ==> Absorbs(rules1[j], rule1) == Absorbs(rules2[j], rule2)
    requires forall j :: 0 <= j < |rules1| ==> Trips(rules1[j], rule1) == Trips(rules2[j], rule2)
    ensures ContainsRule(rules1, rule1) == ContainsRule(rules2, rule2)
  {
    var r1 := ContainsRule(rules1, rule1);
    var r2 := ContainsRule(rules2, rule2);
    if r1 != r2 {
      if r1 == Ok(-1) || r2 == Ok(-1) {
      } else {
        var i1 := FirstHit(rules1, rule1);
        var i2 := FirstHit(rules2, rule2);
      }
    }
  }

  /** The position a lookup stops at when it does not return -1: the index it
      returns, or the entry it trips on. */
  function FirstHit(rules: seq<PolicyRule>, rule: PolicyRule): (i: nat)
    requires ContainsRule(rules, rule) != Ok(-1)
    ensures i < |rules| && (Absorbs(rules[i], rule) || Trips(rules[i], rule))
    ensures forall j :: 0 <= j < i ==> !Absorbs(rules[j], rule) && !Trips(rules[j], rule)
    ensures ContainsRule(rules, rule).Ok? <==> Absorbs(rules[i], rule)
    ensures ContainsRule(rules, rule).Ok? ==> ContainsRule(rules, rule).value == i
  {
    match ContainsRule(rules, rule)
    case Ok(index) => index
    case Panic =>
      var i :| 0 <= i < |rules| && Trips(rules[i], rule)
                && forall j :: 0 <= j < i ==> !Absorbs(rules[j], rule) && !Trips(rules[j], rule);
      i
  }

  /** AddRule's outcome and the keys it leaves depend on keys only. */
  lemma AddRuleKeys(rules1: seq<PolicyRule>, rules2: seq<PolicyRule>, rule1: PolicyRule, rule2: PolicyRule)
    requires Keys(rules1) == Keys(rules2) && Key(rule1) == Key(rule2)
    ensures AddRule(rules1, rule1).Ok? == AddRule(rules2, rule2).Ok?
    ensures AddRule(rules1, rule1).Ok? ==> Keys(AddRule(rules1, rule1).value) == Keys(AddRule(rules2, rule2).value)
  {
    ContainsRuleKeys(rules1, rules2, rule1, rule2);
    var r1 := AddRule(rules1, rule1);
    var r2 := AddRule(rules2, rule2);
    if r1.Ok? {
      if ContainsRule(rules1, rule1).value >= 0 {
        assert Keys(r1.value) == Keys(rules1);
        assert Keys(r2.value) == Keys(rules2);
      } else {
        KeysAppend(rules1, [rule1]);
        KeysAppend(rules2, [rule2]);
      }
    }
  }

  /** AddRules's outcome and the keys it leaves depend on keys only. */
  lemma {:induction false} AddRulesKeys(rules1: seq<PolicyRule>, rules2: seq<PolicyRule>,
                                       add1: seq<PolicyRule>, add2: seq<PolicyRule>)
    requires Keys(rules1) == Keys(rules2) && Keys(add1) == Keys(add2)
    ensures AddRules(rules1, add1).Ok? == AddRules(rules2, add2).Ok?
    ensures AddRules(rules1, add1).Ok? ==> Keys(AddRules(rules1, add1).value) == Keys(AddRules(rules2, add2).value)
    decreases |add1|
  {
    assert |add1| == |Keys(add1)| == |add2|;
    if add1 != [] {
      assert Key(add1[0]) == Keys(add1)[0] == Keys(add2)[0] == Key(add2[0]);
      AddRuleKeys(rules1, rules2, add1[0], add2[0]);
      if AddRule(rules1, add1[0]).Ok? {
        assert Keys(add1[1..]) == Keys(add1)[1..] == Keys(add2)[1..] == Keys(add2[1..]);
        AddRulesKeys(AddRule(rules1, add1[0]).value, AddRule(rules2, add2[0]).value, add1[1..], add2[1..]);
      }
    }
  }

  lemma NameAtomsKeys(group: string, resource: string, names: seq<string>, verbs: seq<string>)
    ensures Keys(NameAtoms(group, resource, names, verbs)) == NameAtoms(group, resource, names, [])
  {
    if names != [] {
      NameAtomsKeys(group, resource, names[1..], verbs);
      KeysAppend([PolicyRule(verbs, [group], [resource], [names[0]], [])], NameAtoms(group, resource, names[1..], verbs));
    }
  }

  lemma ResourceAtomsKeys(group: string, resources: seq<string>, names: seq<string>, verbs: seq<string>)
    ensures Keys(ResourceAtoms(group, resources, names, verbs)) == ResourceAtoms(group, resources, names, [])
  {
    if resources != [] {
      var head := if |names| > 0 then NameAtoms(group, resources[0], names, verbs)
                  else [PolicyRule(verbs, [group], [resources[0]], [], [])];
      NameAtomsKeys(group, resources[0], names, verbs);
      ResourceAtomsKeys(group, resources[1..], names, verbs);
      KeysAppend(head, ResourceAtoms(group, resources[1..], names, verbs));
    }
  }

  lemma GroupAtomsKeys(groups: seq<string>, resources: seq<string>, names: seq<string>, verbs: seq<string>)
    ensures Keys(GroupAtoms(groups, resources, names, verbs)) == GroupAtoms(groups, resources, names, [])
  {
    if groups != [] {
      ResourceAtomsKeys(groups[0], resources, names, verbs);
      GroupAtomsKeys(groups[1..], resources, names, verbs);
      KeysAppend(ResourceAtoms(groups[0], resources, names, verbs), GroupAtoms(groups[1..], resources, names, verbs));
    }
  }

  lemma UrlAtomsKeys(urls: seq<string>, verbs: seq<string>)
    ensures Keys(UrlAtoms(urls, verbs)) == UrlAtoms(urls, [])
  {
    if urls != [] {
      UrlAtomsKeys(urls[1..], verbs);
      KeysAppend([PolicyRule(verbs, [], [], [], [urls[0]])], UrlAtoms(urls[1..], verbs));
    }
  }

  /** The keys of the expansion are the expansion of the keys. */
  lemma {:induction false} AtomsKeys(rules: seq<PolicyRule>)
    ensures Keys(Atoms(rules)) == Atoms(Keys(rules))
  {
    if rules != [] {
      var rule := rules[0];
      GroupAtomsKeys(rule.apiGroups, rule.resources, rule.resourceNames, rule.verbs);
      UrlAtomsKeys(rule.nonResourceURLs, rule.verbs);
      KeysAppend(GroupAtoms(rule.apiGroups, rule.resources, rule.resourceNames, rule.verbs),
                 UrlAtoms(rule.nonResourceURLs, rule.verbs));
      assert Keys(RuleAtoms(rule)) == RuleAtoms(Key(rule));
      AtomsKeys(rules[1..]);
      KeysAppend(RuleAtoms(rule), Atoms(rules[1..]));
      assert Keys(rules)[0] == Key(rule) && Keys(rules)[1..] == Keys(rules[1..]);
    }
  }

  /** Whether ExtendRules panics, and the keys it produces, do not depend on verbs. */
  lemma ExtendRulesKeys(rules1: seq<PolicyRule>, rules2: seq<PolicyRule>)
    requires Keys(rules1) == Keys(rules2)
    ensures ExtendRules(rules1).Ok? == ExtendRules(rules2).Ok?
    ensures ExtendRules(rules1).Ok? ==> Keys(ExtendRules(rules1).value) == Keys(ExtendRules(rules2).value)
  {
    AtomsKeys(rules1);
    AtomsKeys(rules2);
    AddRulesKeys([], [], Atoms(rules1), Atoms(rules2));
  }

  /** A rule with a resource name followed by the same group and resource without
      one makes ExtendRules panic. */
  lemma NamedThenUnnamedPanics()
    ensures ExtendRules([
      PolicyRule(["get"], [""], ["pods"], ["web"], []),
      PolicyRule(["list"], [""], ["pods"], [], [])]).Panic?
  {
    var named := PolicyRule(["get"], [""], ["pods"], ["web"], []);
    var unnamed := PolicyRule(["list"], [""], ["pods"], [], []);
    assert RuleAtoms(named) == [named] by { AtomicRuleAtoms(named); }
    assert RuleAtoms(unnamed) == [unnamed] by { AtomicRuleAtoms(unnamed); }
    assert Atoms([named, unnamed]) == [named, unnamed] by {
      assert [named, unnamed][1..] == [unnamed];
      assert [unnamed][1..] == [];
      assert Atoms([unnamed]) == [unnamed];
    }
    assert ContainsRule([], named) == Ok(-1);
    assert [] + [named] == [named];
    assert AddRule([], named) == Ok([named]);
    assert ContainsRule([named], unnamed).Panic? by {
      assert Trips(named, unnamed);
    }
    assert AddRules([named], [unnamed]).Panic?;
    assert [named, unnamed][1..] == [unnamed];
  }
}

=== FILE: subjects.dfy ===
/** The subject matcher of util/user.go: whether the subjects of a role binding
    reference a given identity. */
module Subjects {

  /** user.Info: the requester, or a resolved service account. */
  datatype Identity = Identity(name: string, uid: string, groups: seq<string>)

  /** rbacv1.Subject: kind is "User", "Group" or "ServiceAccount" (any other
      string is possible and matches nothing). */
  datatype Subject = Subject(kind: string, name: string, namespace: string)

  /** The group loop of SubjectMatchesUserOrServiceAccount. */
  function InGroups(name: string, groups: seq<string>): (r: bool)
    ensures r <==> name in groups
  {
    if groups == [] then false
    else if name == groups[0] then true
    else
      assert groups == [groups[0]] + groups[1..];
      InGroups(name, groups[1..])
  }

  /** SubjectMatchesUserOrServiceAccount. `namespace` is the namespace of the
      binding that holds the subject: a user subject needs the identity's name, a
      service-account subject also needs the binding's namespace, a group subject
      needs one of the identity's groups, and any other kind matches nothing. */
  function SubjectMatches(subject: Subject, user: Identity, namespace: string): (r: bool)
    ensures subject.kind == "User" ==> (r <==> subject.name == user.name)
    ensures subject.kind == "ServiceAccount" ==> (r <==> subject.name == user.name && subject.namespace == namespace)
    ensures subject.kind == "Group" ==> (r <==> subject.name in user.groups)
    ensures subject.kind !in {"User", "ServiceAccount", "Group"} ==> !r
  {
    if subject.kind == "User" && subject.name == user.name then true
    else if subject.kind == "ServiceAccount" && subject.name == user.name && subject.namespace == namespace then true
    else if subject.kind == "Group" then InGroups(subject.name, user.groups)
    else false
  }

  /** SubjectsMatchesUserOrServiceAccount: the first matching subject ends the loop. */
  function SubjectsMatch(subjects: seq<Subject>, user: Identity, namespace: string): (r: bool)
    ensures r <==> exists i :: 0 <= i < |subjects| && SubjectMatches(subjects[i], user, namespace)
  {
    if subjects == [] then false
    else if SubjectMatches(subjects[0], user, namespace) then true
    else
      var r := SubjectsMatch(subjects[1..], user, namespace);
      assert r <==> exists i :: 0 <= i < |subjects| && SubjectMatches(subjects[i], user, namespace) by {
        if r {
          var i :| 0 <= i < |subjects[1..]| && SubjectMatches(subjects[1..][i], user, namespace);
          assert subjects[i + 1] == subjects[1..][i];
        }
        if exists i :: 0 <= i < |subjects| && SubjectMatches(subjects[i], user, namespace) {
          var i :| 0 <= i < |subjects| && SubjectMatches(subjects[i], user, namespace);
          assert i > 0 && subjects[1..][i - 1] == subjects[i];
        }
      }
      r
  }

  // ----- Lemmas -----

  /** No subject matches in an empty list. */
  lemma NoSubjectsNoMatch(user: Identity, namespace: string)
    ensures !SubjectsMatch([], user, namespace)
  {
  }

  /** Matching depends on which subjects are listed, not on their order or count. */
  lemma SubjectsMatchOrderFree(s1: seq<Subject>, s2: seq<Subject>, user: Identity, namespace: string)
    requires forall s :: s in s1 <==> s in s2
    ensures SubjectsMatch(s1, user, namespace) == SubjectsMatch(s2, user, namespace)
  {
    if SubjectsMatch(s1, user, namespace) {
      var i :| 0 <= i < |s1| && SubjectMatches(s1[i], user, namespace);
      assert s1[i] in s2;
    }
    if SubjectsMatch(s2, user, namespace) {
      var i :| 0 <= i < |s2| && SubjectMatches(s2[i], user, namespace);
      assert s2[i] in s1;
    }
  }

  /** A service-account subject is scoped to the namespace of its binding. */
  lemma ServiceAccountScopedToBinding()
    ensures SubjectMatches(Subject("ServiceAccount", "build-bot", "ci"), Identity("build-bot", "", []), "ci")
    ensures !SubjectMatches(Subject("ServiceAccount", "build-bot", "ci"), Identity("build-bot", "", []), "default")
  {
  }
}

=== FILE: validate.dfy ===
/** The decision logic of pkg/validate.go over an abstract snapshot of the
    cluster: the not-found policy parser, role resolution, the per-scope binding
    loops and the final allow/deny response, with the source's control flow kept
    as written (see WebhookFacts for what that control flow amounts to). */
module Webhook {
  import opened Outcomes
  import opened Rules
  import opened Escalation
  import opened Subjects

  // ----- Not-found behaviour -----

  const Deny: int := 0
  const Allow: int := 1

  const StatusOK: int := 200
  const StatusForbidden: int := 403

  /** ASCII lower-casing of one character. */
  function LowerChar(c: char): char {
    if 'A' <= c <= 'Z' then (c as int + 32) as char else c
  }

  /** strings.ToLower restricted to ASCII letters. */
  function ToLower(s: string): (r: string)
    ensures |r| == |s|
    ensures forall i :: 0 <= i < |s| ==> r[i] == LowerChar(s[i])
  {
    if s == [] then [] else [LowerChar(s[0])] + ToLower(s[1..])
  }

  /** The (int, error) pair PraseNotFoundBehavior returns. */
  datatype Parsed = Parsed(behavior: int, err: Option<string>)

  /** PraseNotFoundBehavior: "deny" gives Deny and "allow" gives Allow, in any
      letter case; anything else gives -1 together with an error. */
  function PraseNotFoundBehavior(behavior: string): (r: Parsed)
    ensures r.behavior == Deny <==> ToLower(behavior) == "deny"
    ensures r.behavior == Allow <==> ToLower(behavior) == "allow"
    ensures r.behavior == Deny || r.behavior == Allow || r.behavior == -1
    ensures r.err.None? <==> r.behavior != -1
    ensures r.err.Some? ==> r.err.value == "Faild to phrase behavior. Behavior: " + behavior + " invalid"
  {
    var behaviorLower := ToLower(behavior);
    if behaviorLower == "deny" then Parsed(Deny, None)
    else if behaviorLower == "allow" then Parsed(Allow, None)
    else Parsed(-1, Some("Faild to phrase behavior. Behavior: " + behavior + " invalid"))
  }

  // ----- The snapshot Validate reads -----

  datatype RoleRef = RoleRef(kind: string, name: string)

  /** A RoleBinding, or a ClusterRoleBinding (whose namespace is ""). */
  datatype Binding = Binding(name: string, namespace: string, subjects: seq<Subject>, roleRef: RoleRef)

  /** The admission request: its namespace, the requester (ExtractUser) and the
      outcome of locating the service-account name in the object
      (ExtractServiceAccount). */
  datatype Request = Request(namespace: string, user: Identity, serviceAccount: Result<string>)

  /** What Validate reads from the API client and the informer caches.
      getServiceAccount stands for GetServiceAccount (name, namespace);
      rulesToString stands for RulesToString. */
  datatype Cluster = Cluster(
    getServiceAccount: (string, string) -> Result<Identity>,
    namespaces: Result<seq<string>>,
    roleBindings: string -> Result<seq<Binding>>,
    clusterRoleBindings: Result<seq<Binding>>,
    roles: map<(string, string), seq<PolicyRule>>,
    clusterRoles: map<string, seq<PolicyRule>>,
    rulesToString: seq<PolicyRule> -> Result<string>)

  datatype Config = Config(saNotFoundBehavior: int)

  /** The AdmissionResponse fields the decision sets. */
  datatype Response = Response(allowed: bool, message: string, code: int)

  /** The control flow inside Validate: carry on with a value, return a response
      early, or stop with a runtime panic. */
  datatype Flow<T> = Next(value: T) | Stop(response: Response) | Crash

  function Denied(message: string): Response {
    Response(false, message, StatusForbidden)
  }

  // ----- Role resolution -----

  /** GetRulesForRoleBinding: kind "Role" is looked up among the roles of the
      binding's namespace, any other kind among the cluster roles. The lister
      returns a nil role when the name is missing and `role.Rules` dereferences
      it, so a missing role panics. */
  function RulesForRoleBinding(cluster: Cluster, binding: Binding): (r: Outcome<seq<PolicyRule>>)
    ensures binding.roleRef.kind == "Role" ==>
              var key := (binding.namespace, binding.roleRef.name);
              && (r.Ok? <==> key in cluster.roles)
              && (r.Ok? ==> r.value == cluster.roles[key])
    ensures binding.roleRef.kind != "Role" ==>
              && (r.Ok? <==> binding.roleRef.name in cluster.clusterRoles)
              && (r.Ok? ==> r.value == cluster.clusterRoles[binding.roleRef.name])
  {
    if binding.roleRef.kind == "Role" then
      if (binding.namespace, binding.roleRef.name) in cluster.roles then Ok(cluster.roles[(binding.namespace, binding.roleRef.name)])
      else Panic
    else
      if binding.roleRef.name in cluster.clusterRoles then Ok(cluster.clusterRoles[binding.roleRef.name])
      else Panic
  }

  /** GetRulesForClusterRoleBinding: only cluster roles, whatever the kind of the
      reference says; a missing one panics. */
  function RulesForClusterRoleBinding(cluster: Cluster, binding: Binding): (r: Outcome<seq<PolicyRule>>)
    ensures r.Ok? <==> binding.roleRef.name in cluster.clusterRoles
    ensures r.Ok? ==> r.value == cluster.clusterRoles[binding.roleRef.name]
  {
    if binding.roleRef.name in cluster.clusterRoles then Ok(cluster.clusterRoles[binding.roleRef.name])
    else Panic
  }

  /** The role lookup of the namespace loop (clusterScope false) or of the
      cluster loop (clusterScope true). */
  function RulesFor(cluster: Cluster, binding: Binding, clusterScope: bool): (r: Outcome<seq<PolicyRule>>)
    ensures !clusterScope && binding.roleRef.kind == "Role" ==>
              var key := (binding.namespace, binding.roleRef.name);
              && (r.Ok? <==> key in cluster.roles)
              && (r.Ok? ==> r.value == cluster.roles[key])
    ensures (clusterScope || binding.roleRef.kind != "Role") ==>
              && (r.Ok? <==> binding.roleRef.name in cluster.clusterRoles)
              && (r.Ok? ==> r.value == cluster.clusterRoles[binding.roleRef.name])
  {
    if clusterScope then RulesForClusterRoleBinding(cluster, binding) else RulesForRoleBinding(cluster, binding)
  }

  /** Which parts of a binding a lookup reads: a cluster-role lookup reads the
      role name only, never the binding's namespace, and at cluster scope not
      even the kind of the reference. */
  lemma ClusterRoleLookupReadsNameOnly(cluster: Cluster, b1: Binding, b2: Binding, clusterScope: bool)
    requires b1.roleRef.name == b2.roleRef.name
    requires clusterScope || (b1.roleRef.kind != "Role" && b2.roleRef.kind != "Role")
    ensures RulesFor(cluster, b1, clusterScope) == RulesFor(cluster, b2, clusterScope)
  {
  }

  /** `t` keeps the place and key of every entry of `s`. */
  predicate KeepsKeys(s: seq<PolicyRule>, t: seq<PolicyRule>) {
    |s| <= |t| && forall i :: 0 <= i < |s| ==> Key(t[i]) == Key(s[i])
  }

  /** `rules` holds the grant of `binding`: its role resolves, expands without a
      panic, and some entry of `rules` absorbs every expanded entry. */
  predicate HoldsGrantOf(cluster: Cluster, binding: Binding, clusterScope: bool, rules: seq<PolicyRule>) {
    && RulesFor(cluster, binding, clusterScope).Ok?
    && ExtendRules(RulesFor(cluster, binding, clusterScope).value).Ok?
    && forall e :: e in ExtendRules(RulesFor(cluster, binding, clusterScope).value).value ==> Covered(rules, e)
  }

  /** `rule` has the key of an atom of the role `binding` refers to. */
  predicate FromGrantOf(cluster: Cluster, binding: Binding, clusterScope: bool, rule: PolicyRule) {
    && RulesFor(cluster, binding, clusterScope).Ok?
    && HasKeyOf(Atoms(RulesFor(cluster, binding, clusterScope).value), rule)
  }

  /** The rules of a binding's role, expanded and added into `into`: the entries
      of `into` keep their place and key, and the result holds the grant
      (GrantFrom: and nothing else). */
  function Grant(cluster: Cluster, binding: Binding, clusterScope: bool, into: seq<PolicyRule>): (r: Outcome<seq<PolicyRule>>)
    ensures Normal(into) && r.Ok? ==> Normal(r.value)
    ensures RulesFor(cluster, binding, clusterScope).Panic? ==> r.Panic?
    ensures r.Ok? ==> KeepsKeys(into, r.value)
    ensures r.Ok? ==> HoldsGrantOf(cluster, binding, clusterScope, r.value)
  {
    match RulesFor(cluster, binding, clusterScope)
    case Panic => Panic
    case Ok(rules) =>
      match ExtendRules(rules)
      case Panic => Panic
      case Ok(extended) =>
        AddRulesKeepsNormal(into, extended);
        assert forall a :: a in extended ==> Atomic(a);
        AddRulesAbsorbs(into, extended);
        AddRules(into, extended)
  }

  /** Grant adds nothing but the grant: every entry past those of `into` has the
      key of an atom of the binding's role. */
  lemma GrantFrom(cluster: Cluster, binding: Binding, clusterScope: bool, into: seq<PolicyRule>)
    ensures var r := Grant(cluster, binding, clusterScope, into);
            r.Ok? ==> forall i :: |into| <= i < |r.value| ==> FromGrantOf(cluster, binding, clusterScope, r.value[i])
  {
    var r := Grant(cluster, binding, clusterScope, into);
    if r.Ok? {
      var rules := RulesFor(cluster, binding, clusterScope).value;
      var extended := ExtendRules(rules).value;
      assert r.value == AddRules(into, extended).value;
      KeysFromAtoms(Atoms(rules), into, extended, r.value);
    }
  }

  /** Holding a grant survives any extension that keeps the keys of the entries. */
  lemma HoldsGrantKeys(cluster: Cluster, binding: Binding, clusterScope: bool, s: seq<PolicyRule>, t: seq<PolicyRule>)
    requires HoldsGrantOf(cluster, binding, clusterScope, s)
    requires KeepsKeys(s, t)
    ensures HoldsGrantOf(cluster, binding, clusterScope, t)
  {
    forall e | e in ExtendRules(RulesFor(cluster, binding, clusterScope).value).value
      ensures Covered(t, e)
    {
      CoveredByPrefixKeys(s, t, e);
    }
  }

  lemma AddRulesKeepsNormal(into: seq<PolicyRule>, extended: seq<PolicyRule>)
    requires Normal(extended)
    ensures Normal(into) && AddRules(into, extended).Ok? ==> Normal(AddRules(into, extended).value)
  {
    if Normal(into) {
      assert forall a :: a in extended ==> Atomic(a);
      AddRulesNormal(into, extended);
    }
  }

  // ----- One scope -----

  /** The binding loop of one scope, as written. A binding that matches the
      service account adds its grants into saRules; a binding that matches the
      requester REPLACES saRules with its grants added into userRules, which is
      never assigned and so always empty. */
  function ScopeRules(cluster: Cluster, bindings: seq<Binding>, sa: Identity, user: Identity,
                      clusterScope: bool, saRules: seq<PolicyRule>): (r: Outcome<seq<PolicyRule>>)
    ensures Normal(saRules) && r.Ok? ==> Normal(r.value)
    decreases |bindings|
  {
    if bindings == [] then Ok(saRules)
    else
      var binding := bindings[0];
      var afterSa :=
        if SubjectsMatch(binding.subjects, sa, binding.namespace) then Grant(cluster, binding, clusterScope, saRules)
        else Ok(saRules);
      match afterSa
      case Panic => Panic
      case Ok(saRules1) =>
        var userRules: seq<PolicyRule> := [];
        var afterUser :=
          if SubjectsMatch(binding.subjects, user, binding.namespace) then Grant(cluster, binding, clusterScope, userRules)
          else Ok(saRules1);
        match afterUser
        case Panic => Panic
        case Ok(saRules2) => ScopeRules(cluster, bindings[1..], sa, user, clusterScope, saRules2)
  }

  /** What the binding loop keeps. The grant of every binding that names the
      service account or the requester is held at the end unless a later
      binding names the requester (which replaces everything collected); when
      no binding names the requester, the incoming entries keep their place and
      key. */
  lemma {:induction false} ScopeRulesHolds(cluster: Cluster, bindings: seq<Binding>, sa: Identity, user: Identity,
                                           clusterScope: bool, saRules: seq<PolicyRule>)
    ensures var r := ScopeRules(cluster, bindings, sa, user, clusterScope, saRules);
            r.Ok? && NoneNames(bindings, user) ==> KeepsKeys(saRules, r.value)
    ensures var r := ScopeRules(cluster, bindings, sa, user, clusterScope, saRules);
            r.Ok? ==> forall i :: 0 <= i < |bindings| && GrantSurvives(bindings, i, sa, user)
                        ==> HoldsGrantOf(cluster, bindings[i], clusterScope, r.value)
    decreases |bindings|
  {
    var r := ScopeRules(cluster, bindings, sa, user, clusterScope, saRules);
    if bindings != [] && r.Ok? {
      var binding := bindings[0];
      var afterSa :=
        if SubjectsMatch(binding.subjects, sa, binding.namespace) then Grant(cluster, binding, clusterScope, saRules)
        else Ok(saRules);
      var saRules1 := afterSa.value;
      var afterUser :=
        if SubjectsMatch(binding.subjects, user, binding.namespace) then Grant(cluster, binding, clusterScope, [])
        else Ok(saRules1);
      var saRules2 := afterUser.value;
      assert r == ScopeRules(cluster, bindings[1..], sa, user, clusterScope, saRules2);
      ScopeRulesHolds(cluster, bindings[1..], sa, user, clusterScope, saRules2);
      ScopeRulesStep(cluster, bindings, sa, user, clusterScope, saRules, saRules2, r.value);
    }
  }

  /** No binding of the list names `who`. */
  predicate NoneNames(bindings: seq<Binding>, who: Identity) {
    forall j :: 0 <= j < |bindings| ==> !SubjectsMatch(bindings[j].subjects, who, bindings[j].namespace)
  }

  /** Binding `i` names the service account or the requester, and no later
      binding names the requester: its grant is still in the collected rules at
      the end of the loop. */
  predicate GrantSurvives(bindings: seq<Binding>, i: nat, sa: Identity, user: Identity)
    requires i < |bindings|
  {
    && (SubjectsMatch(bindings[i].subjects, sa, bindings[i].namespace)
        || SubjectsMatch(bindings[i].subjects, user, bindings[i].namespace))
    && NoneNames(bindings[i + 1..], user)
  }

  /** One turn of the binding loop: what the first binding leaves in `saRules2`
      and what the rest of the loop keeps of it give the loop's promises. */
  lemma ScopeRulesStep(cluster: Cluster, bindings: seq<Binding>, sa: Identity, user: Identity, clusterScope: bool,
                       saRules: seq<PolicyRule>, saRules2: seq<PolicyRule>, out: seq<PolicyRule>)
    requires bindings != []
    requires GrantSurvives(bindings, 0, sa, user) ==> HoldsGrantOf(cluster, bindings[0], clusterScope, saRules2)
    requires NoneNames(bindings, user) ==> KeepsKeys(saRules, saRules2)
    requires NoneNames(bindings[1..], user) ==> KeepsKeys(saRules2, out)
    requires forall i :: 0 <= i < |bindings[1..]| && GrantSurvives(bindings[1..], i, sa, user)
               ==> HoldsGrantOf(cluster, bindings[1..][i], clusterScope, out)
    ensures NoneNames(bindings, user) ==> KeepsKeys(saRules, out)
    ensures forall i :: 0 <= i < |bindings| && GrantSurvives(bindings, i, sa, user)
              ==> HoldsGrantOf(cluster, bindings[i], clusterScope, out)
  {
    var rest := bindings[1..];
    assert NoneNames(bindings, user) ==> NoneNames(rest, user) by {
      if NoneNames(bindings, user) {
        forall j | 0 <= j < |rest| ensures !SubjectsMatch(rest[j].subjects, user, rest[j].namespace) {
          assert rest[j] == bindings[j + 1];
        }
      }
    }
    forall i | 0 <= i < |bindings| && GrantSurvives(bindings, i, sa, user)
      ensures HoldsGrantOf(cluster, bindings[i], clusterScope, out)
    {
      if i == 0 {
        assert bindings[1..] == rest;
        HoldsGrantKeys(cluster, bindings[0], clusterScope, saRules2, out);
      } else {
        assert bindings[i] == rest[i - 1] && bindings[i + 1..] == rest[i..];
        assert GrantSurvives(rest, i - 1, sa, user);
      }
    }
  }

  /** Where every collected entry comes from: while no binding names the
      requester, an entry may sit at a place of the incoming `saRules` (whose key
      it keeps, ScopeRulesHolds); any other entry has the key of an atom of a
      binding whose grant survives. */
  predicate CollectedFrom(cluster: Cluster, bindings: seq<Binding>, sa: Identity, user: Identity, clusterScope: bool,
                          saRules: seq<PolicyRule>, out: seq<PolicyRule>) {
    forall i :: 0 <= i < |out| ==>
      || (NoneNames(bindings, user) && i < |saRules|)
      || exists j :: 0 <= j < |bindings| && GrantSurvives(bindings, j, sa, user)
                     && FromGrantOf(cluster, bindings[j], clusterScope, out[i])
  }

  /** The binding loop collects nothing but grants: every entry of the result is
      an incoming entry (only when no binding names the requester) or comes from
      the grant of a binding that names the service account or the requester at
      or after the last binding that names the requester. */
  lemma {:induction false} ScopeRulesFrom(cluster: Cluster, bindings: seq<Binding>, sa: Identity, user: Identity,
                                          clusterScope: bool, saRules: seq<PolicyRule>)
    ensures var r := ScopeRules(cluster, bindings, sa, user, clusterScope, saRules);
            r.Ok? ==> CollectedFrom(cluster, bindings, sa, user, clusterScope, saRules, r.value)
    decreases |bindings|
  {
    var r := ScopeRules(cluster, bindings, sa, user, clusterScope, saRules);
    if bindings != [] && r.Ok? {
      var binding := bindings[0];
      var namesSa := SubjectsMatch(binding.subjects, sa, binding.namespace);
      var namesUser := SubjectsMatch(binding.subjects, user, binding.namespace);
      var saRules1 := if namesSa then Grant(cluster, binding, clusterScope, saRules).value else saRules;
      var saRules2 := if namesUser then Grant(cluster, binding, clusterScope, []).value else saRules1;
      assert r == ScopeRules(cluster, bindings[1..], sa, user, clusterScope, saRules2);
      if namesSa { GrantFrom(cluster, binding, clusterScope, saRules); }
      if namesUser { GrantFrom(cluster, binding, clusterScope, []); }
      ScopeRulesFrom(cluster, bindings[1..], sa, user, clusterScope, saRules2);
      ScopeRulesHolds(cluster, bindings[1..], sa, user, clusterScope, saRules2);
      ScopeRulesFromStep(cluster, bindings, sa, user, clusterScope, saRules, saRules2, r.value);
    } else if r.Ok? {
      assert r.value == saRules && NoneNames(bindings, user);
    }
  }

  /** One turn of the binding loop for ScopeRulesFrom. */
  lemma ScopeRulesFromStep(cluster: Cluster, bindings: seq<Binding>, sa: Identity, user: Identity, clusterScope: bool,
                           saRules: seq<PolicyRule>, saRules2: seq<PolicyRule>, out: seq<PolicyRule>)
    requires bindings != []
    requires var b := bindings[0];
             forall i :: 0 <= i < |saRules2| ==>
               || (!SubjectsMatch(b.subjects, user, b.namespace) && i < |saRules|)
               || ((SubjectsMatch(b.subjects, sa, b.namespace) || SubjectsMatch(b.subjects, user, b.namespace))
                   && FromGrantOf(cluster, b, clusterScope, saRules2[i]))
    requires NoneNames(bindings[1..], user) ==> KeepsKeys(saRules2, out)
    requires CollectedFrom(cluster, bindings[1..], sa, user, clusterScope, saRules2, out)
    ensures CollectedFrom(cluster, bindings, sa, user, clusterScope, saRules, out)
  {
    var rest := bindings[1..];
    forall i | 0 <= i < |out|
      ensures || (NoneNames(bindings, user) && i < |saRules|)
              || exists j :: 0 <= j < |bindings| && GrantSurvives(bindings, j, sa, user)
                             && FromGrantOf(cluster, bindings[j], clusterScope, out[i])
    {
      if NoneNames(rest, user) && i < |saRules2| {
        assert Key(out[i]) == Key(saRules2[i]);
        if !SubjectsMatch(bindings[0].subjects, user, bindings[0].namespace) && i < |saRules| {
          assert NoneNames(bindings, user) by {
            forall j | 0 <= j < |bindings| ensures !SubjectsMatch(bindings[j].subjects, user, bindings[j].namespace) {
              if j > 0 { assert bindings[j] == rest[j - 1]; }
            }
          }
        } else {
          assert bindings[1..] == rest;
          assert GrantSurvives(bindings, 0, sa, user);
          assert FromGrantOf(cluster, bindings[0], clusterScope, out[i]);
        }
      } else {
        var j :| 0 <= j < |rest| && GrantSurvives(rest, j, sa, user) && FromGrantOf(cluster, rest[j], clusterScope, out[i]);
        assert bindings[j + 1] == rest[j] && bindings[j + 2..] == rest[j + 1..];
        assert GrantSurvives(bindings, j + 1, sa, user);
      }
    }
    assert forall i :: 0 <= i < |out| ==>
      || (NoneNames(bindings, user) && i < |saRules|)
      || exists j :: 0 <= j < |bindings| && GrantSurvives(bindings, j, sa, user)
                     && FromGrantOf(cluster, bindings[j], clusterScope, out[i]);
  }

  /** IsRuleEscalation(userRules, saRules) with userRules empty: the accumulated
      service-account rules themselves, since they are already in ExtendRules shape. */
  function ScopeEscalation(saRules: seq<PolicyRule>): (r: Outcome<seq<PolicyRule>>)
    ensures Normal(saRules) ==> r == Ok(saRules)
  {
    var userRules: seq<PolicyRule> := [];
    EmptyBaseEscalatesAll(saRules);
    ExtendRulesKeepsNormal(saRules);
    IsRuleEscalation(userRules, saRules)
  }

  lemma ExtendRulesKeepsNormal(rules: seq<PolicyRule>)
    ensures Normal(rules) ==> ExtendRules(rules) == Ok(rules)
  {
    if Normal(rules) {
      ExtendRulesOfNormal(rules);
    }
  }

  /** The escalation computed for one namespace, from an empty saRules. */
  function NamespaceEscalation(cluster: Cluster, namespace: string, sa: Identity, user: Identity): (r: Flow<seq<PolicyRule>>)
    ensures cluster.roleBindings(namespace).Failure? ==> r == Stop(Denied(cluster.roleBindings(namespace).error))
    ensures cluster.roleBindings(namespace).Success? ==>
              var final := ScopeRules(cluster, cluster.roleBindings(namespace).value, sa, user, false, []);
              && (r.Crash? <==> final.Panic?)
              && (final.Ok? ==> r == Next(final.value))
  {
    match cluster.roleBindings(namespace)
    case Failure(e) => Stop(Denied(e))
    case Success(bindings) =>
      assert Normal([]);
      match ScopeRules(cluster, bindings, sa, user, false, [])
      case Panic => Crash
      case Ok(saRules) =>
        match ScopeEscalation(saRules)
        case Panic => Crash
        case Ok(escalated) => Next(escalated)
  }

  /** A namespace with a non-empty escalation, as stored in namespacedEscalationRules. */
  datatype Recorded = Recorded(namespace: string, rules: seq<PolicyRule>)

  /** Some record is for `namespace`: the key is in namespacedEscalationRules. */
  predicate HasRecord(recorded: seq<Recorded>, namespace: string) {
    exists k :: 0 <= k < |recorded| && recorded[k].namespace == namespace
  }

  /** No namespace has two records: the records are the entries of a map keyed
      by namespace name. */
  predicate DistinctNames(recorded: seq<Recorded>) {
    forall k, l :: 0 <= k < l < |recorded| ==> recorded[k].namespace != recorded[l].namespace
  }

  /** Storing a non-empty escalation under its namespace. A namespace already
      recorded keeps its entry: the map assignment overwrites it with the
      escalation of the same name, which `escalation` computes alike on every
      visit. */
  function Record(recorded: seq<Recorded>, namespace: string, escalated: seq<PolicyRule>): seq<Recorded> {
    if |escalated| > 0 && !HasRecord(recorded, namespace) then recorded + [Recorded(namespace, escalated)]
    else recorded
  }

  /** The namespace loop: each listed namespace is evaluated on its own by
      `escalation` and recorded under its name when its escalation is
      non-empty; the first namespace that ends the request ends the loop. */
  function NamespaceLoop(escalation: string -> Flow<seq<PolicyRule>>, namespaces: seq<string>,
                         recorded: seq<Recorded>): (r: Flow<seq<Recorded>>)
    ensures r.Stop? ==> exists n :: n in namespaces && escalation(n) == Stop(r.response)
    ensures r.Next? ==> |recorded| <= |r.value| && r.value[..|recorded|] == recorded
    decreases |namespaces|
  {
    if namespaces == [] then Next(recorded)
    else
      var namespace := namespaces[0];
      match escalation(namespace)
      case Stop(response) => Stop(response)
      case Crash => Crash
      case Next(escalated) =>
        var recorded' := Record(recorded, namespace, escalated);
        var r := NamespaceLoop(escalation, namespaces[1..], recorded');
        assert r.Next? ==> r.value[..|recorded|] == r.value[..|recorded'|][..|recorded|];
        assert r.Stop? ==> exists n :: n in namespaces && escalation(n) == Stop(r.response) by {
          if r.Stop? {
            var n :| n in namespaces[1..] && escalation(n) == Stop(r.response);
            assert n in namespaces;
          }
        }
        r
  }

  /** Every record the namespace loop adds is a listed namespace together with
      its own non-empty escalation. */
  lemma {:induction false} NamespaceLoopSound(escalation: string -> Flow<seq<PolicyRule>>, namespaces: seq<string>,
                                             recorded: seq<Recorded>)
    requires NamespaceLoop(escalation, namespaces, recorded).Next?
    ensures var out := NamespaceLoop(escalation, namespaces, recorded).value;
            forall k :: |recorded| <= k < |out| ==>
              && out[k].namespace in namespaces
              && |out[k].rules| > 0
              && escalation(out[k].namespace) == Next(out[k].rules)
    decreases |namespaces|
  {
    if namespaces != [] {
      var namespace := namespaces[0];
      var escalated := escalation(namespace).value;
      var recorded' := Record(recorded, namespace, escalated);
      NamespaceLoopSound(escalation, namespaces[1..], recorded');
      var out := NamespaceLoop(escalation, namespaces, recorded).value;
      assert out == NamespaceLoop(escalation, namespaces[1..], recorded').value;
      forall k | |recorded| <= k < |out|
        ensures out[k].namespace in namespaces
        ensures |out[k].rules| > 0
        ensures escalation(out[k].namespace) == Next(out[k].rules)
      {
        if k < |recorded'| {
          assert out[k] == out[..|recorded'|][k] == recorded'[k] == Recorded(namespace, escalated);
        } else {
          assert out[k].namespace in namespaces[1..];
        }
      }
    }
  }

  /** The namespace loop ends normally exactly when every listed namespace does,
      and then it records each namespace whose escalation is non-empty. */
  lemma {:induction false} NamespaceLoopComplete(escalation: string -> Flow<seq<PolicyRule>>, namespaces: seq<string>,
                                                recorded: seq<Recorded>)
    ensures NamespaceLoop(escalation, namespaces, recorded).Next? <==>
              forall n :: n in namespaces ==> escalation(n).Next?
    ensures NamespaceLoop(escalation, namespaces, recorded).Next? ==>
              var out := NamespaceLoop(escalation, namespaces, recorded).value;
              forall n :: n in namespaces && |escalation(n).value| > 0 ==> HasRecord(out, n)
    decreases |namespaces|
  {
    if namespaces != [] {
      var namespace := namespaces[0];
      assert namespaces == [namespace] + namespaces[1..];
      if escalation(namespace).Next? {
        var escalated := escalation(namespace).value;
        var recorded' := Record(recorded, namespace, escalated);
        NamespaceLoopComplete(escalation, namespaces[1..], recorded');
        if NamespaceLoop(escalation, namespaces, recorded).Next? {
          var out := NamespaceLoop(escalation, namespaces, recorded).value;
          assert out == NamespaceLoop(escalation, namespaces[1..], recorded').value;
          forall n | n in namespaces && |escalation(n).value| > 0
            ensures HasRecord(out, n)
          {
            if n != namespace {
              assert n in namespaces[1..];
            } else if HasRecord(recorded, n) {
              var k :| 0 <= k < |recorded| && recorded[k].namespace == n;
              assert out[k] == out[..|recorded|][k];
            } else {
              assert out[|recorded|] == out[..|recorded'|][|recorded|] == recorded'[|recorded|];
            }
          }
        }
      }
    }
  }

  /** The namespace loop records each namespace at most once. */
  lemma {:induction false} NamespaceLoopDistinct(escalation: string -> Flow<seq<PolicyRule>>, namespaces: seq<string>,
                                                recorded: seq<Recorded>)
    requires DistinctNames(recorded)
    ensures NamespaceLoop(escalation, namespaces, recorded).Next? ==>
              DistinctNames(NamespaceLoop(escalation, namespaces, recorded).value)
    decreases |namespaces|
  {
    if namespaces != [] && escalation(namespaces[0]).Next? {
      var namespace := namespaces[0];
      var recorded' := Record(recorded, namespace, escalation(namespace).value);
      assert DistinctNames(recorded') by {
        if recorded' != recorded {
          assert !HasRecord(recorded, namespace);
          forall k | 0 <= k < |recorded|
            ensures recorded'[k].namespace != recorded'[|recorded|].namespace
          {
            assert recorded'[k] == recorded[k];
          }
        }
      }
      NamespaceLoopDistinct(escalation, namespaces[1..], recorded');
      assert NamespaceLoop(escalation, namespaces, recorded) == NamespaceLoop(escalation, namespaces[1..], recorded');
    }
  }

  /** When every listed namespace ends normally, the loop records nothing exactly
      when no namespace has an escalation. */
  lemma NothingRecordedIff(escalation: string -> Flow<seq<PolicyRule>>, namespaces: seq<string>)
    requires forall n :: n in namespaces ==> escalation(n).Next?
    ensures NamespaceLoop(escalation, namespaces, []).Next?
    ensures NamespaceLoop(escalation, namespaces, []).value == [] <==>
              forall n :: n in namespaces ==> escalation(n).value == []
  {
    NamespaceLoopComplete(escalation, namespaces, []);
    NamespaceLoopSound(escalation, namespaces, []);
    var out := NamespaceLoop(escalation, namespaces, []).value;
    if out != [] {
      assert out[0].namespace in namespaces && |escalation(out[0].namespace).value| > 0;
    }
  }

  /** The namespace loop ends with the response of the first listed namespace
      that stops, provided every namespace before it ends normally. */
  lemma {:induction false} NamespaceLoopStopsAt(escalation: string -> Flow<seq<PolicyRule>>, namespaces: seq<string>,
                                               recorded: seq<Recorded>, k: nat)
    requires k < |namespaces| && escalation(namespaces[k]).Stop?
    requires forall j :: 0 <= j < k ==> escalation(namespaces[j]).Next?
    ensures NamespaceLoop(escalation, namespaces, recorded) == Stop(escalation(namespaces[k]).response)
    decreases k
  {
    if k > 0 {
      var escalated := escalation(namespaces[0]).value;
      var recorded' := Record(recorded, namespaces[0], escalated);
      assert forall j :: 0 <= j < k - 1 ==> namespaces[1..][j] == namespaces[j + 1];
      NamespaceLoopStopsAt(escalation, namespaces[1..], recorded', k - 1);
    }
  }

  // ----- The response -----

  const ClusterClause: string := "Request try to grant permissions at Cluster-Scope that are currently not held by user: "
  const NamespaceClause: string := "Request try to grant permissions in Namespace: "
  const NamespaceClauseMiddle: string := " that are currently not held by user: "

  /** The clause of one recorded namespace, around the text of its rules. */
  function NamespaceClauseText(namespace: string, rulesString: string): string {
    NamespaceClause + namespace + NamespaceClauseMiddle + rulesString + "."
  }

  /** One clause per recorded namespace, appended to `errorString`; the first
      serialization error ends the loop with that error. */
  function NamespaceClauses(cluster: Cluster, recorded: seq<Recorded>, errorString: string): (r: Result<string>)
    ensures r.Success? ==> errorString <= r.value
    ensures r.Success? <==> forall k :: 0 <= k < |recorded| ==> cluster.rulesToString(recorded[k].rules).Success?
    ensures r.Failure? ==> exists k :: 0 <= k < |recorded| && cluster.rulesToString(recorded[k].rules) == Failure(r.error)
    decreases |recorded|
  {
    if recorded == [] then Success(errorString)
    else
      assert forall k :: 1 <= k < |recorded| ==> recorded[k] == recorded[1..][k - 1];
      match cluster.rulesToString(recorded[0].rules)
      case Failure(e) => Failure(e)
      case Success(rulesString) =>
        var clause := NamespaceClauseText(recorded[0].namespace, rulesString);
        var r := NamespaceClauses(cluster, recorded[1..], errorString + clause);
        assert r.Success? ==> errorString <= errorString + clause <= r.value;
        r
  }

  /** The denial message: the cluster clause first, present only when the
      cluster-scope escalation is non-empty, then the namespace clauses. */
  function EscalationMessage(cluster: Cluster, clusterEscalated: seq<PolicyRule>, recorded: seq<Recorded>): (r: Result<string>)
    ensures r.Success? && |clusterEscalated| > 0 ==> ClusterClause <= r.value
    ensures r.Success? && |clusterEscalated| == 0 && |recorded| > 0 ==>
              NamespaceClause + recorded[0].namespace + NamespaceClauseMiddle <= r.value
    ensures |clusterEscalated| > 0 && cluster.rulesToString(clusterEscalated).Failure? ==>
              r == Failure(cluster.rulesToString(clusterEscalated).error)
    ensures |clusterEscalated| > 0 && cluster.rulesToString(clusterEscalated).Success? ==>
              r == NamespaceClauses(cluster, recorded, ClusterClause + cluster.rulesToString(clusterEscalated).value + ".")
    ensures |clusterEscalated| == 0 ==> r == NamespaceClauses(cluster, recorded, "")
  {
    var start :=
      if |clusterEscalated| > 0 then
        match cluster.rulesToString(clusterEscalated)
        case Failure(e) => Failure(e)
        case Success(rulesString) => Success(ClusterClause + rulesString + ".")
      else Success("");
    match start
    case Failure(e) => Failure(e)
    case Success(errorString) =>
      var r := NamespaceClauses(cluster, recorded, errorString);
      assert r.Success? && |clusterEscalated| == 0 && |recorded| > 0 ==>
               NamespaceClause + recorded[0].namespace + NamespaceClauseMiddle <= r.value by {
        if r.Success? && |clusterEscalated| == 0 && |recorded| > 0 {
          if cluster.rulesToString(recorded[0].rules).Success? {
            var rs := cluster.rulesToString(recorded[0].rules).value;
            var clause := NamespaceClauseText(recorded[0].namespace, rs);
            assert errorString + clause == clause;
            assert NamespaceClause + recorded[0].namespace + NamespaceClauseMiddle <= clause;
          }
        }
      }
      assert r.Success? && |clusterEscalated| > 0 ==> ClusterClause <= r.value by {
        if r.Success? && |clusterEscalated| > 0 {
          assert ClusterClause <= errorString;
        }
      }
      r
  }

  /** The clauses of a single record: its clause after `errorString`, or the
      serialization error of its rules. */
  lemma NamespaceClausesSingle(cluster: Cluster, record: Recorded, errorString: string)
    ensures cluster.rulesToString(record.rules).Failure? ==>
              NamespaceClauses(cluster, [record], errorString) == Failure(cluster.rulesToString(record.rules).error)
    ensures cluster.rulesToString(record.rules).Success? ==>
              NamespaceClauses(cluster, [record], errorString)
              == Success(errorString + NamespaceClauseText(record.namespace, cluster.rulesToString(record.rules).value))
  {
    assert [record][1..] == [];
  }

  /** Rendering distributes over concatenation of the records: the clauses of
      the second part follow the text of the first, and a failure in the first
      part ends the rendering. Together with NamespaceClausesSingle this fixes
      the text: one clause per record, in record order. */
  lemma {:induction false} NamespaceClausesAppend(cluster: Cluster, r1: seq<Recorded>, r2: seq<Recorded>, errorString: string)
    ensures NamespaceClauses(cluster, r1 + r2, errorString)
            == match NamespaceClauses(cluster, r1, errorString)
               case Failure(e) => Failure(e)
               case Success(text) => NamespaceClauses(cluster, r2, text)
    decreases |r1|
  {
    if r1 == [] {
      assert r1 + r2 == r2;
    } else {
      assert (r1 + r2)[0] == r1[0] && (r1 + r2)[1..] == r1[1..] + r2;
      match cluster.rulesToString(r1[0].rules)
      case Failure(e) =>
      case Success(rulesString) =>
        NamespaceClausesAppend(cluster, r1[1..], r2, errorString + NamespaceClauseText(r1[0].namespace, rulesString));
    }
  }

  /** Validate. Every lookup error denies with the error text; only a failure
      to locate the service-account name under the Allow policy is allowed. */
  function Validate(request: Request, config: Config, cluster: Cluster): (r: Outcome<Response>)
    ensures request.serviceAccount.Failure? ==>
              r == Ok(Response(config.saNotFoundBehavior != Deny, request.serviceAccount.error,
                               if config.saNotFoundBehavior == Deny then StatusForbidden else StatusOK))
    ensures r.Ok? ==> (r.value.allowed <==> r.value.code == StatusOK)
    ensures r.Ok? && !r.value.allowed ==> r.value.code == StatusForbidden
    ensures r.Ok? && r.value.allowed && request.serviceAccount.Success? ==> r.value.message == "Request allowed"
  {
    match request.serviceAccount
    case Failure(e) =>
      if config.saNotFoundBehavior == Deny then Ok(Response(false, e, StatusForbidden))
      else Ok(Response(true, e, StatusOK))
    case Success(serviceAccount) =>
      match cluster.getServiceAccount(serviceAccount, request.namespace)
      case Failure(e) => Ok(Denied(e))
      case Success(serviceAccountUser) =>
        match cluster.namespaces
        case Failure(e) => Ok(Denied(e))
        case Success(namespaces) =>
          var perNamespace := n => NamespaceEscalation(cluster, n, serviceAccountUser, request.user);
          match NamespaceLoop(perNamespace, namespaces, [])
          case Crash => Panic
          case Stop(response) =>
            assert exists n :: perNamespace(n) == Stop(response);
            Ok(response)
          case Next(namespacedEscalationRules) =>
            var isEscalated := |namespacedEscalationRules| > 0;
            match cluster.clusterRoleBindings
            case Failure(e) => Ok(Denied(e))
            case Success(clusterRoleBindings) =>
              match ScopeRules(cluster, clusterRoleBindings, serviceAccountUser, request.user, true, [])
              case Panic => Panic
              case Ok(saRules) =>
                match ScopeEscalation(saRules)
                case Panic => Panic
                case Ok(clusterEscalatedRules) =>
                  if isEscalated then
                    match EscalationMessage(cluster, clusterEscalatedRules, namespacedEscalationRules)
                    case Failure(e) => Ok(Denied(e))
                    case Success(errorString) => Ok(Denied(errorString))
                  else
                    Ok(Response(true, "Request allowed", StatusOK))
  }
}

=== FILE: validate_facts.dfy ===
/** What the control flow of Validate amounts to: which lookups deny, that a
    binding matching the requester replaces the service account's collected
    rules, and that the verdict depends on nothing but the namespaces' final
    collected rules. */
module WebhookFacts {
  import opened Outcomes
  import opened Rules
  import opened Escalation
  import opened Subjects
  import opened Webhook

  /** A failure to resolve the service account, to list the namespaces, to list
      the role bindings of a namespace or to list the cluster role bindings
      denies the request with the error text. For the role bindings it is the
      first listed namespace whose lookup fails, once every namespace before it
      has been evaluated normally. */
  lemma LookupFailuresDeny(request: Request, config: Config, cluster: Cluster)
    requires request.serviceAccount.Success?
    ensures var found := cluster.getServiceAccount(request.serviceAccount.value, request.namespace);
            found.Failure? ==> Validate(request, config, cluster) == Ok(Denied(found.error))
    ensures var found := cluster.getServiceAccount(request.serviceAccount.value, request.namespace);
            found.Success? && cluster.namespaces.Failure? ==>
              Validate(request, config, cluster) == Ok(Denied(cluster.namespaces.error))
    ensures var found := cluster.getServiceAccount(request.serviceAccount.value, request.namespace);
            found.Success? && cluster.namespaces.Success? ==>
              var namespaces := cluster.namespaces.value;
              forall k :: 0 <= k < |namespaces| && cluster.roleBindings(namespaces[k]).Failure?
                          && (forall j :: 0 <= j < k ==> NamespaceEscalation(cluster, namespaces[j], found.value, request.user).Next?)
                ==> Validate(request, config, cluster) == Ok(Denied(cluster.roleBindings(namespaces[k]).error))
    ensures var found := cluster.getServiceAccount(request.serviceAccount.value, request.namespace);
            && found.Success? && cluster.namespaces.Success?
            && NamespaceLoop(n => NamespaceEscalation(cluster, n, found.value, request.user), cluster.namespaces.value, []).Next?
            && cluster.clusterRoleBindings.Failure? ==>
              Validate(request, config, cluster) == Ok(Denied(cluster.clusterRoleBindings.error))
  {
    var found := cluster.getServiceAccount(request.serviceAccount.value, request.namespace);
    if found.Success? && cluster.namespaces.Success? {
      var namespaces := cluster.namespaces.value;
      var perNamespace := n => NamespaceEscalation(cluster, n, found.value, request.user);
      forall k | 0 <= k < |namespaces| && cluster.roleBindings(namespaces[k]).Failure?
                 && (forall j :: 0 <= j < k ==> NamespaceEscalation(cluster, namespaces[j], found.value, request.user).Next?)
        ensures Validate(request, config, cluster) == Ok(Denied(cluster.roleBindings(namespaces[k]).error))
      {
        NamespaceLoopStopsAt(perNamespace, namespaces, [], k);
      }
    }
  }

  /** A binding whose role is missing panics as soon as it matches the service
      account. */
  lemma MissingRoleCrashes(cluster: Cluster, bindings: seq<Binding>, sa: Identity, user: Identity,
                           clusterScope: bool, saRules: seq<PolicyRule>)
    requires bindings != [] && SubjectsMatch(bindings[0].subjects, sa, bindings[0].namespace)
    requires RulesFor(cluster, bindings[0], clusterScope).Panic?
    ensures ScopeRules(cluster, bindings, sa, user, clusterScope, saRules).Panic?
  {
  }

  /** The grants of a resolved binding, expanded, added into an empty list give
      the expansion itself. */
  lemma GrantIntoNothing(cluster: Cluster, binding: Binding, clusterScope: bool)
    requires RulesFor(cluster, binding, clusterScope).Ok?
    ensures Grant(cluster, binding, clusterScope, []) == ExtendRules(RulesFor(cluster, binding, clusterScope).value)
  {
    var extended := ExtendRules(RulesFor(cluster, binding, clusterScope).value);
    if extended.Ok? {
      var e := extended.value;
      assert e[..0] == [] && e[0..] == e;
      AddRulesRebuilds(e, 0);
    }
  }

  /** A binding that matches the requester throws away whatever the service
      account had collected before it: the loop carries on from that binding's
      own expanded grants alone. */
  lemma RequesterMatchReplaces(cluster: Cluster, binding: Binding, rest: seq<Binding>, sa: Identity, user: Identity,
                               clusterScope: bool, saRules: seq<PolicyRule>)
    requires SubjectsMatch(binding.subjects, user, binding.namespace)
    requires SubjectsMatch(binding.subjects, sa, binding.namespace) ==> Grant(cluster, binding, clusterScope, saRules).Ok?
    requires RulesFor(cluster, binding, clusterScope).Ok?
    requires ExtendRules(RulesFor(cluster, binding, clusterScope).value).Ok?
    ensures ScopeRules(cluster, [binding] + rest, sa, user, clusterScope, saRules)
            == ScopeRules(cluster, rest, sa, user, clusterScope, ExtendRules(RulesFor(cluster, binding, clusterScope).value).value)
  {
    GrantIntoNothing(cluster, binding, clusterScope);
    assert ([binding] + rest)[0] == binding && ([binding] + rest)[1..] == rest;
  }

  /** Two service-account histories before a requester-matching binding end in
      the same collected rules. */
  lemma RequesterMatchForgets(cluster: Cluster, binding: Binding, rest: seq<Binding>, user: Identity,
                              clusterScope: bool, sa1: Identity, saRules1: seq<PolicyRule>,
                              sa2: Identity, saRules2: seq<PolicyRule>)
    requires SubjectsMatch(binding.subjects, user, binding.namespace)
    requires !SubjectsMatch(binding.subjects, sa1, binding.namespace)
    requires !SubjectsMatch(binding.subjects, sa2, binding.namespace)
    requires forall b :: b in rest ==> !SubjectsMatch(b.subjects, sa1, b.namespace) && !SubjectsMatch(b.subjects, sa2, b.namespace)
    requires RulesFor(cluster, binding, clusterScope).Ok?
    requires ExtendRules(RulesFor(cluster, binding, clusterScope).value).Ok?
    ensures ScopeRules(cluster, [binding] + rest, sa1, user, clusterScope, saRules1)
            == ScopeRules(cluster, [binding] + rest, sa2, user, clusterScope, saRules2)
  {
    RequesterMatchReplaces(cluster, binding, rest, sa1, user, clusterScope, saRules1);
    RequesterMatchReplaces(cluster, binding, rest, sa2, user, clusterScope, saRules2);
    IgnoresServiceAccount(cluster, rest, sa1, sa2, user, clusterScope,
                          ExtendRules(RulesFor(cluster, binding, clusterScope).value).value);
  }

  /** When no binding names the service account, which service account it is
      does not matter. */
  lemma {:induction false} IgnoresServiceAccount(cluster: Cluster, bindings: seq<Binding>, sa1: Identity, sa2: Identity,
                                                user: Identity, clusterScope: bool, saRules: seq<PolicyRule>)
    requires forall b :: b in bindings ==> !SubjectsMatch(b.subjects, sa1, b.namespace) && !SubjectsMatch(b.subjects, sa2, b.namespace)
    ensures ScopeRules(cluster, bindings, sa1, user, clusterScope, saRules)
            == ScopeRules(cluster, bindings, sa2, user, clusterScope, saRules)
    decreases |bindings|
  {
    if bindings != [] {
      assert bindings[0] in bindings;
      assert forall b :: b in bindings[1..] ==> b in bindings;
      var binding := bindings[0];
      var next := if SubjectsMatch(binding.subjects, user, binding.namespace) then Grant(cluster, binding, clusterScope, [])
                  else Ok(saRules);
      if next.Ok? {
        IgnoresServiceAccount(cluster, bindings[1..], sa1, sa2, user, clusterScope, next.value);
      }
    }
  }

  /** The escalation of one namespace is its final collected service-account
      rules: the base of the comparison is always empty. */
  lemma NamespaceEscalationIsCollected(cluster: Cluster, namespace: string, sa: Identity, user: Identity)
    requires cluster.roleBindings(namespace).Success?
    ensures var final := ScopeRules(cluster, cluster.roleBindings(namespace).value, sa, user, false, []);
            final.Ok? ==> NamespaceEscalation(cluster, namespace, sa, user) == Next(final.value)
  {
  }

  /** The verdict as written. Once every lookup succeeds and nothing panics, the
      request is allowed exactly when every namespace ends with no collected
      service-account rules. Cluster-scope grants never enter the verdict. */
  lemma AllowedIffNothingCollected(request: Request, config: Config, cluster: Cluster)
    requires request.serviceAccount.Success?
    requires cluster.getServiceAccount(request.serviceAccount.value, request.namespace).Success?
    requires cluster.namespaces.Success?
    requires cluster.clusterRoleBindings.Success?
    requires var sa := cluster.getServiceAccount(request.serviceAccount.value, request.namespace).value;
             forall n :: n in cluster.namespaces.value ==>
               && cluster.roleBindings(n).Success?
               && ScopeRules(cluster, cluster.roleBindings(n).value, sa, request.user, false, []).Ok?
    requires var sa := cluster.getServiceAccount(request.serviceAccount.value, request.namespace).value;
             ScopeRules(cluster, cluster.clusterRoleBindings.value, sa, request.user, true, []).Ok?
    ensures Validate(request, config, cluster).Ok?
    ensures var sa := cluster.getServiceAccount(request.serviceAccount.value, request.namespace).value;
            Validate(request, config, cluster).value.allowed <==>
              forall n :: n in cluster.namespaces.value ==>
                ScopeRules(cluster, cluster.roleBindings(n).value, sa, request.user, false, []) == Ok([])
  {
    var sa := cluster.getServiceAccount(request.serviceAccount.value, request.namespace).value;
    var namespaces := cluster.namespaces.value;
    var perNamespace := n => NamespaceEscalation(cluster, n, sa, request.user);
    forall n | n in namespaces
      ensures perNamespace(n) == Next(ScopeRules(cluster, cluster.roleBindings(n).value, sa, request.user, false, []).value)
    {
      NamespaceEscalationIsCollected(cluster, n, sa, request.user);
    }
    NamespaceLoopComplete(perNamespace, namespaces, []);
    var recorded := NamespaceLoop(perNamespace, namespaces, []).value;
    NamespaceLoopSound(perNamespace, namespaces, []);
    assert Normal([]);
    var clusterRules := ScopeRules(cluster, cluster.clusterRoleBindings.value, sa, request.user, true, []).value;
    assert ScopeEscalation(clusterRules) == Ok(clusterRules);
    if recorded == [] {
      assert Validate(request, config, cluster).value.allowed;
      forall n | n in namespaces
        ensures ScopeRules(cluster, cluster.roleBindings(n).value, sa, request.user, false, []) == Ok([])
      {
        assert |perNamespace(n).value| == 0;
      }
    } else {
      assert !Validate(request, config, cluster).value.allowed;
      assert recorded[0].namespace in namespaces && |recorded[0].rules| > 0;
    }
  }

  /** `recorded` holds exactly the listed namespaces whose collected
      service-account rules are non-empty, each once and with those rules. */
  predicate RecordsCollected(cluster: Cluster, sa: Identity, user: Identity, namespaces: seq<string>,
                             recorded: seq<Recorded>) {
    && (forall k :: 0 <= k < |recorded| ==>
          && recorded[k].namespace in namespaces
          && recorded[k].rules != []
          && cluster.roleBindings(recorded[k].namespace).Success?
          && ScopeRules(cluster, cluster.roleBindings(recorded[k].namespace).value, sa, user, false, [])
             == Ok(recorded[k].rules))
    && (forall n :: n in namespaces && cluster.roleBindings(n).Success? ==>
          var collected := ScopeRules(cluster, cluster.roleBindings(n).value, sa, user, false, []);
          collected.Ok? && collected.value != [] ==>
            HasRecord(recorded, n))
    && DistinctNames(recorded)
  }

  /** Records that name a namespace twice are not the records of the loop, so
      no namespace clause can appear twice in the message. */
  lemma DoubledRecordsRejected(cluster: Cluster, sa: Identity, user: Identity, namespaces: seq<string>,
                               recorded: seq<Recorded>)
    requires recorded != []
    ensures !RecordsCollected(cluster, sa, user, namespaces, recorded + recorded)
  {
    var doubled := recorded + recorded;
    assert doubled[0].namespace == doubled[|recorded|].namespace;
  }

  /** The message as written. Once every lookup succeeds and nothing panics, a
      denied request carries EscalationMessage (or its serialization error) for
      the cluster scope's collected rules and the records of exactly the
      namespaces with non-empty collected rules; cluster-scope rules alone never
      deny. */
  lemma DenialMessage(request: Request, config: Config, cluster: Cluster)
    requires request.serviceAccount.Success?
    requires cluster.getServiceAccount(request.serviceAccount.value, request.namespace).Success?
    requires cluster.namespaces.Success?
    requires cluster.clusterRoleBindings.Success?
    requires var sa := cluster.getServiceAccount(request.serviceAccount.value, request.namespace).value;
             forall n :: n in cluster.namespaces.value ==>
               && cluster.roleBindings(n).Success?
               && ScopeRules(cluster, cluster.roleBindings(n).value, sa, request.user, false, []).Ok?
    requires var sa := cluster.getServiceAccount(request.serviceAccount.value, request.namespace).value;
             ScopeRules(cluster, cluster.clusterRoleBindings.value, sa, request.user, true, []).Ok?
    ensures Validate(request, config, cluster).Ok?
    ensures var sa := cluster.getServiceAccount(request.serviceAccount.value, request.namespace).value;
            var clusterRules := ScopeRules(cluster, cluster.clusterRoleBindings.value, sa, request.user, true, []).value;
            exists recorded ::
              && RecordsCollected(cluster, sa, request.user, cluster.namespaces.value, recorded)
              && (recorded == [] ==> Validate(request, config, cluster).value == Response(true, "Request allowed", StatusOK))
              && (recorded != [] ==>
                    var message := EscalationMessage(cluster, clusterRules, recorded);
                    Validate(request, config, cluster).value
                    == Denied(if message.Success? then message.value else message.error))
  {
    var sa := cluster.getServiceAccount(request.serviceAccount.value, request.namespace).value;
    RecordsOfLoop(cluster, sa, request.user, cluster.namespaces.value);
    assert Normal([]);
    var clusterRules := ScopeRules(cluster, cluster.clusterRoleBindings.value, sa, request.user, true, []).value;
    assert ScopeEscalation(clusterRules) == Ok(clusterRules);
  }

  /** When every namespace's bindings resolve and collect without a panic, the
      namespace loop as written records exactly the namespaces with non-empty
      collected rules. */
  lemma RecordsOfLoop(cluster: Cluster, sa: Identity, user: Identity, namespaces: seq<string>)
    requires forall n :: n in namespaces ==>
               && cluster.roleBindings(n).Success?
               && ScopeRules(cluster, cluster.roleBindings(n).value, sa, user, false, []).Ok?
    ensures NamespaceLoop(n => NamespaceEscalation(cluster, n, sa, user), namespaces, []).Next?
    ensures RecordsCollected(cluster, sa, user, namespaces,
                             NamespaceLoop(n => NamespaceEscalation(cluster, n, sa, user), namespaces, []).value)
  {
    var perNamespace := n => NamespaceEscalation(cluster, n, sa, user);
    NamespaceLoopComplete(perNamespace, namespaces, []);
    NamespaceLoopSound(perNamespace, namespaces, []);
    NamespaceLoopDistinct(perNamespace, namespaces, []);
    var recorded := NamespaceLoop(perNamespace, namespaces, []).value;
    RecordsOfEscalations(cluster, sa, user, namespaces, recorded);
  }

  /** The records of the namespace escalations, read as the collected rules of
      the namespaces' bindings. */
  lemma RecordsOfEscalations(cluster: Cluster, sa: Identity, user: Identity, namespaces: seq<string>,
                             recorded: seq<Recorded>)
    requires forall n :: n in namespaces ==>
               && cluster.roleBindings(n).Success?
               && ScopeRules(cluster, cluster.roleBindings(n).value, sa, user, false, []).Ok?
    requires forall k :: 0 <= k < |recorded| ==>
               && recorded[k].namespace in namespaces
               && |recorded[k].rules| > 0
               && NamespaceEscalation(cluster, recorded[k].namespace, sa, user) == Next(recorded[k].rules)
    requires forall n :: n in namespaces && |NamespaceEscalation(cluster, n, sa, user).value| > 0 ==> HasRecord(recorded, n)
    requires DistinctNames(recorded)
    ensures RecordsCollected(cluster, sa, user, namespaces, recorded)
  {
    forall n | n in namespaces
      ensures NamespaceEscalation(cluster, n, sa, user)
              == Next(ScopeRules(cluster, cluster.roleBindings(n).value, sa, user, false, []).value)
    {
      NamespaceEscalationIsCollected(cluster, n, sa, user);
    }
  }
}

=== FILE: verbs.dfy ===
/** Verb lists of RBAC policy rules (util/rules.go, ReduceVerbs and MergeRuleVerbs).
    The wildcard verb "*" absorbs every other verb; otherwise duplicates are removed. */
module Verbs {

  /** The verb that grants every verb. */
  const Wildcard: string := "*"

  /** No verb occurs twice. */
  predicate NoDuplicates(s: seq<string>) {
    forall i, j :: 0 <= i < j < |s| ==> s[i] != s[j]
  }

  /** Reference definition of duplicate removal: every verb is kept at its LAST
      occurrence, and the kept verbs stay in their relative input order. */
  function LastOccurrences(verbs: seq<string>): seq<string> {
    if verbs == [] then []
    else (if verbs[0] in verbs[1..] then [] else [verbs[0]]) + LastOccurrences(verbs[1..])
  }

  /** The loop of ReduceVerbs from position `index` on, with the verbs kept so far
      in `reduced`: a wildcard ends the loop with ["*"]; a verb that occurs again
      later is skipped. */
  function ReduceFrom(verbs: seq<string>, index: nat, reduced: seq<string>): seq<string>
    requires index <= |verbs|
    decreases |verbs| - index
  {
    if index == |verbs| then reduced
    else if verbs[index] == Wildcard then [Wildcard]
    else
      var matched := verbs[index] in verbs[index + 1..];
      ReduceFrom(verbs, index + 1, if matched then reduced else reduced + [verbs[index]])
  }

  lemma {:induction false} ReduceFromMeaning(verbs: seq<string>, index: nat, reduced: seq<string>)
    requires index <= |verbs|
    ensures Wildcard in verbs[index..] ==> ReduceFrom(verbs, index, reduced) == [Wildcard]
    ensures Wildcard !in verbs[index..] ==>
              ReduceFrom(verbs, index, reduced) == reduced + LastOccurrences(verbs[index..])
    decreases |verbs| - index
  {
    if index == |verbs| {
      assert verbs[index..] == [];
    } else if verbs[index] == Wildcard {
      assert verbs[index..][0] == Wildcard;
    } else {
      var rest := verbs[index..];
      assert rest[0] == verbs[index] && rest[1..] == verbs[index + 1..];
      var matched := verbs[index] in verbs[index + 1..];
      var next := if matched then reduced else reduced + [verbs[index]];
      ReduceFromMeaning(verbs, index + 1, next);
      assert Wildcard in rest <==> Wildcard in verbs[index + 1..] by {
        assert rest == [verbs[index]] + verbs[index + 1..];
      }
      if Wildcard !in rest {
        var head := if matched then [] else [verbs[index]];
        calc {
          ReduceFrom(verbs, index, reduced);
          ReduceFrom(verbs, index + 1, next);
          next + LastOccurrences(verbs[index + 1..]);
          reduced + (head + LastOccurrences(verbs[index + 1..]));
          reduced + LastOccurrences(rest);
        }
      }
    }
  }

  /** ReduceVerbs: a wildcard anywhere reduces the list to ["*"]; otherwise the
      result is the duplicate-free list of the last occurrences. */
  function ReduceVerbs(verbs: seq<string>): (r: seq<string>)
    ensures Wildcard in verbs ==> r == [Wildcard]
    ensures Wildcard !in verbs ==> r == LastOccurrences(verbs)
    ensures Wildcard !in verbs ==> NoDuplicates(r) && Wildcard !in r
    ensures forall v :: v in r ==> v in verbs
    ensures Wildcard !in verbs ==> forall v :: v in verbs ==> v in r
  {
    ReduceFromMeaning(verbs, 0, []);
    assert verbs[0..] == verbs;
    LastOccurrencesElements(verbs);
    LastOccurrencesDistinct(verbs);
    ReduceFrom(verbs, 0, [])
  }

  lemma {:induction false} LastOccurrencesElements(verbs: seq<string>)
    ensures forall v :: v in LastOccurrences(verbs) <==> v in verbs
  {
    if verbs != [] {
      LastOccurrencesElements(verbs[1..]);
      assert verbs == [verbs[0]] + verbs[1..];
    }
  }

  lemma {:induction false} LastOccurrencesDistinct(verbs: seq<string>)
    ensures NoDuplicates(LastOccurrences(verbs))
  {
    if verbs != [] {
      LastOccurrencesDistinct(verbs[1..]);
      LastOccurrencesElements(verbs[1..]);
      var tail := LastOccurrences(verbs[1..]);
      if verbs[0] !in verbs[1..] {
        var r := [verbs[0]] + tail;
        forall i, j | 0 <= i < j < |r| ensures r[i] != r[j] {
          if i == 0 {
            assert r[j] == tail[j - 1];
            assert r[j] in tail;
          } else {
            assert r[i] == tail[i - 1] && r[j] == tail[j - 1];
          }
        }
      }
    }
  }

  /** On a duplicate-free list, keeping last occurrences changes nothing. */
  lemma {:induction false} LastOccurrencesOfDistinct(verbs: seq<string>)
    requires NoDuplicates(verbs)
    ensures LastOccurrences(verbs) == verbs
  {
    if verbs != [] {
      assert NoDuplicates(verbs[1..]) by {
        forall i, j | 0 <= i < j < |verbs[1..]| ensures verbs[1..][i] != verbs[1..][j] {
          assert verbs[1..][i] == verbs[i + 1] && verbs[1..][j] == verbs[j + 1];
        }
      }
      LastOccurrencesOfDistinct(verbs[1..]);
      assert verbs[0] !in verbs[1..] by {
        forall k | 0 <= k < |verbs[1..]| ensures verbs[1..][k] != verbs[0] {
          assert verbs[1..][k] == verbs[k + 1];
        }
      }
      assert verbs == [verbs[0]] + verbs[1..];
    }
  }

  /** Applying ReduceVerbs twice is the same as applying it once. */
  lemma ReduceVerbsIdempotent(verbs: seq<string>)
    ensures ReduceVerbs(ReduceVerbs(verbs)) == ReduceVerbs(verbs)
  {
    if Wildcard !in verbs {
      LastOccurrencesOfDistinct(ReduceVerbs(verbs));
    }
  }

  /** The verbs of `rest` that are not in `verbs1`, in the order of `rest`. */
  function Missing(rest: seq<string>, verbs1: seq<string>): seq<string> {
    if rest == [] then []
    else (if rest[0] in verbs1 then [] else [rest[0]]) + Missing(rest[1..], verbs1)
  }

  /** The filter keeps exactly the verbs of `rest` that `verbs1` lacks. */
  lemma {:induction false} MissingElements(rest: seq<string>, verbs1: seq<string>)
    ensures forall v :: v in Missing(rest, verbs1) <==> v in rest && v !in verbs1
    decreases |rest|
  {
    if rest != [] {
      MissingElements(rest[1..], verbs1);
      assert rest == [rest[0]] + rest[1..];
    }
  }

  /** Filtering keeps a duplicate-free list duplicate-free. */
  lemma {:induction false} MissingNoDuplicates(rest: seq<string>, verbs1: seq<string>)
    requires NoDuplicates(rest)
    ensures NoDuplicates(Missing(rest, verbs1))
    decreases |rest|
  {
    if rest != [] {
      assert NoDuplicates(rest[1..]) by {
        forall i, j | 0 <= i < j < |rest[1..]| ensures rest[1..][i] != rest[1..][j] {
          assert rest[1..][i] == rest[i + 1] && rest[1..][j] == rest[j + 1];
        }
      }
      MissingNoDuplicates(rest[1..], verbs1);
      assert rest[0] !in rest[1..] by {
        forall k | 0 <= k < |rest[1..]| ensures rest[1..][k] != rest[0] {
          assert rest[1..][k] == rest[k + 1];
        }
      }
      var tail := Missing(rest[1..], verbs1);
      var head := if rest[0] in verbs1 then [] else [rest[0]];
      MissingElements(rest[1..], verbs1);
      assert Missing(rest, verbs1) == head + tail;
      forall i, j | 0 <= i < j < |head + tail| ensures (head + tail)[i] != (head + tail)[j] {
        if i < |head| {
          assert (head + tail)[j] in tail;
        }
      }
    }
  }

  /** Two duplicate-free lists with no verb in common concatenate without duplicates. */
  lemma DisjointConcat(a: seq<string>, b: seq<string>)
    requires NoDuplicates(a) && NoDuplicates(b)
    requires forall v :: v in a ==> v !in b
    ensures NoDuplicates(a + b)
  {
    forall i, j | 0 <= i < j < |a + b| ensures (a + b)[i] != (a + b)[j] {
      if i < |a| && j >= |a| {
        assert (a + b)[i] in a && (a + b)[j] in b;
      }
    }
  }

  /** The inner loop of MergeRuleVerbs: appends to `verbs` each verb of `rest`
      that is not in `verbs1`, in order. */
  function AppendMissing(verbs: seq<string>, verbs1: seq<string>, rest: seq<string>): (r: seq<string>)
    ensures r == verbs + Missing(rest, verbs1)
    ensures |verbs| <= |r| && r[..|verbs|] == verbs
    ensures forall v :: v in r <==> v in verbs || (v in rest && v !in verbs1)
    ensures (NoDuplicates(verbs) && NoDuplicates(rest) && forall v :: v in verbs && v in rest ==> v in verbs1)
            ==> NoDuplicates(r)
    decreases |rest|
  {
    if rest == [] then
      AppendedFacts(verbs, verbs1, rest, verbs);
      verbs
    else
      var found := rest[0] in verbs1;
      var next := if found then verbs else verbs + [rest[0]];
      var r := AppendMissing(next, verbs1, rest[1..]);
      if found then
        MissingSkips(rest, verbs1);
        AppendedFacts(verbs, verbs1, rest, r);
        r
      else
        MissingKeeps(verbs, rest, verbs1);
        AppendedFacts(verbs, verbs1, rest, r);
        r
  }

  /** A first verb that `verbs1` already holds is not appended. */
  lemma MissingSkips(rest: seq<string>, verbs1: seq<string>)
    requires rest != [] && rest[0] in verbs1
    ensures Missing(rest, verbs1) == Missing(rest[1..], verbs1)
  {
    assert Missing(rest, verbs1) == [] + Missing(rest[1..], verbs1);
  }

  /** A first verb that `verbs1` lacks is appended before the missing verbs of the rest. */
  lemma MissingKeeps(verbs: seq<string>, rest: seq<string>, verbs1: seq<string>)
    requires rest != [] && rest[0] !in verbs1
    ensures (verbs + [rest[0]]) + Missing(rest[1..], verbs1) == verbs + Missing(rest, verbs1)
  {
    var tail := Missing(rest[1..], verbs1);
    assert Missing(rest, verbs1) == [rest[0]] + tail;
    assert (verbs + [rest[0]]) + tail == verbs + ([rest[0]] + tail);
  }

  /** What appending the missing verbs gives: `verbs` stays a prefix, the verbs
      are those of `verbs` and the new ones of `rest`, and no duplicate arises
      when the two lists have none and share only verbs of `verbs1`. */
  lemma AppendedFacts(verbs: seq<string>, verbs1: seq<string>, rest: seq<string>, r: seq<string>)
    requires r == verbs + Missing(rest, verbs1)
    ensures |verbs| <= |r| && r[..|verbs|] == verbs
    ensures forall v :: v in r <==> v in verbs || (v in rest && v !in verbs1)
    ensures (NoDuplicates(verbs) && NoDuplicates(rest) && forall v :: v in verbs && v in rest ==> v in verbs1)
            ==> NoDuplicates(r)
  {
    assert r[..|verbs|] == verbs;
    MissingElements(rest, verbs1);
    if NoDuplicates(verbs) && NoDuplicates(rest) && forall v :: v in verbs && v in rest ==> v in verbs1 {
      MissingNoDuplicates(rest, verbs1);
      DisjointConcat(verbs, Missing(rest, verbs1));
    }
  }

  /** When every verb of `rest` is already in `verbs1`, nothing is appended. */
  lemma {:induction false} AppendMissingNothing(verbs: seq<string>, verbs1: seq<string>, rest: seq<string>)
    requires forall v :: v in rest ==> v in verbs1
    ensures AppendMissing(verbs, verbs1, rest) == verbs
    decreases |rest|
  {
    if rest != [] {
      assert rest[0] in rest;
      assert forall v :: v in rest[1..] ==> v in rest;
      AppendMissingNothing(verbs, verbs1, rest[1..]);
    }
  }

  /** MergeRuleVerbs: the union of two verb lists, collapsing to ["*"] when either
      side holds the wildcard, and otherwise keeping the reduced first list as a
      prefix followed by the new verbs of the second. */
  function MergeRuleVerbs(verbs1: seq<string>, verbs2: seq<string>): (r: seq<string>)
    ensures Wildcard in verbs1 || Wildcard in verbs2 ==> r == [Wildcard]
    ensures Wildcard !in verbs1 && Wildcard !in verbs2 ==>
              && NoDuplicates(r)
              && Wildcard !in r
              && (forall v :: v in r <==> v in verbs1 || v in verbs2)
              && |ReduceVerbs(verbs1)| <= |r|
              && r[..|ReduceVerbs(verbs1)|] == ReduceVerbs(verbs1)
              && r[|ReduceVerbs(verbs1)|..] == Missing(ReduceVerbs(verbs2), ReduceVerbs(verbs1))
  {
    var reduced1 := ReduceVerbs(verbs1);
    var reduced2 := ReduceVerbs(verbs2);
    assert Wildcard !in verbs1 ==> !(|reduced1| > 0 && reduced1[0] == Wildcard) by {
      if Wildcard !in verbs1 && |reduced1| > 0 { assert reduced1[0] in reduced1; }
    }
    assert Wildcard !in verbs2 ==> !(|reduced2| > 0 && reduced2[0] == Wildcard) by {
      if Wildcard !in verbs2 && |reduced2| > 0 { assert reduced2[0] in reduced2; }
    }
    if |reduced1| > 0 && reduced1[0] == Wildcard then reduced1
    else if |reduced2| > 0 && reduced2[0] == Wildcard then reduced2
    else AppendMissing(reduced1, reduced1, reduced2)
  }

  /** `granted` grants every verb of `verbs`: it holds the wildcard, or it lists
      each of them. */
  predicate GrantsVerbs(granted: seq<string>, verbs: seq<string>) {
    Wildcard in granted || forall v :: v in verbs ==> v in granted
  }

  /** A merge grants both of its inputs and holds no verb that neither lists. */
  lemma MergeGrants(verbs1: seq<string>, verbs2: seq<string>)
    ensures GrantsVerbs(MergeRuleVerbs(verbs1, verbs2), verbs1)
    ensures GrantsVerbs(MergeRuleVerbs(verbs1, verbs2), verbs2)
    ensures forall v :: v in MergeRuleVerbs(verbs1, verbs2) ==> v in verbs1 || v in verbs2
  {
  }

  lemma GrantsVerbsTransitive(a: seq<string>, b: seq<string>, c: seq<string>)
    requires GrantsVerbs(a, b) && GrantsVerbs(b, c)
    ensures GrantsVerbs(a, c)
  {
  }

  /** Merging a verb list with itself is the same as reducing it. */
  lemma MergeWithItself(verbs: seq<string>)
    ensures MergeRuleVerbs(verbs, verbs) == ReduceVerbs(verbs)
  {
    if Wildcard !in verbs {
      var reduced := ReduceVerbs(verbs);
      AppendMissingNothing(reduced, reduced, reduced);
    }
  }

  /** Merging is idempotent: merging the same verbs in again changes nothing. */
  lemma MergeAbsorbsRepeat(verbs1: seq<string>, verbs2: seq<string>)
    ensures MergeRuleVerbs(MergeRuleVerbs(verbs1, verbs2), verbs2) == MergeRuleVerbs(verbs1, verbs2)
  {
    var m := MergeRuleVerbs(verbs1, verbs2);
    if Wildcard !in verbs1 && Wildcard !in verbs2 {
      LastOccurrencesOfDistinct(m);
      var reduced2 := ReduceVerbs(verbs2);
      AppendMissingNothing(m, m, reduced2);
    }
  }
}
